=== FILE: README.md ===
# Five Wireshark dissectors, modelled in Dafny

This project models the decoding logic of five small Wireshark dissectors
and proves properties about it. Each one takes a packet buffer (a *tvbuff*),
decides whether the buffer belongs to its protocol, and decodes its header.
It then works out which window of the buffer goes on to the next dissector:

- **E100** (`packet-e100.c`): a fixed 28-byte big-endian capture envelope
  around an Ethernet frame. It has separately declared captured and
  original payload lengths.
- **Interlink** (`packet-interlink.c`): an `"ILNK"` magic, a 16-byte
  little-endian header, and a block `type << 8 | version` key. The key
  picks a sub-dissector, and the default is `data`.
- **Redback Lawful Intercept** (`packet-redbackli.c`): a walk over AVPs of
  the form type, length, value. The heuristic validates each AVP and needs
  the sequence-number, LI-id and session-id AVPs to be present. The
  dissecting walk stops at End-Of-Header or at an incomplete AVP, and
  everything after it goes to IP. An encoder for AVP sequences is the
  reference that the dissecting walk is checked against.
- **HDCP2** (`packet-hdcp2.c`): HDCP 2.x authentication messages. A
  message-ID table fixes the exact body length of each message. Each
  message has its own field layout, and three sanity warnings apply
  (reserved bits, version, length).
- **CTDB** (`packet-ctdb.c`), the clustered TDB protocol:
  - byte-order detection from the magic word, and the 32-byte header;
  - the body of each opcode, and the `ctdb_hash` key hash;
  - the 8-byte alignment fix-up;
  - the sentinel-terminated control-handler table, and the node map reply;
  - the tables that match requests to responses across frames, on the
    first pass and on later passes.

## Structure

- `wrappers.dfy`: `Option` and `Result`.
- `byteview.dfy` (module `ByteView`): the buffer. A `View` has captured
  bytes and a reported length, with `captured <= reported <= 2^31 - 1`.
  It also has the bounds-checked readers, big- and little-endian 16/32-bit
  codecs, and subset windows.
  - A read past the captured bytes is the Wireshark bounds exception. It is
    modelled as `Failure(OutOfBounds)`.
  - `proto_tree_add_item` bounds-checks its field even when no tree is
    being built.
  - A `guint32` length handed to it as a signed `gint` follows the tvbuff
    rules: `-1` means "to the end" of a byte-string field, and throws
    unless at least one captured byte remains (or nothing at all was
    captured); any other negative length throws. `ItemFits` and
    `LengthItem` state this.
- `e100.dfy`, `interlink.dfy`, `redbackli.dfy`, `hdcp2.dfy`: one module per
  dissector.
- `ctdb_hash.dfy` (`CtdbHash`): the key hash with explicit `mod 2^32`
  arithmetic, and the alignment fix-up.
- `ctdb_controls.dfy` (`CtdbControls`): the control-handler table, its
  lookup, and the control sub-dissectors, including the bounded node-map
  walk.
- `ctdb.dfy` (`Ctdb`): the header codec, the opcode bodies and the
  request/response matching state.
  - That state is two maps, threaded through every frame as an `Outcome`
    (result plus state afterwards).
  - Table updates made before a bounds failure are kept, as in the source.

## Model

| member | source | states |
|---|---|---|
| ByteView.DecodeEncodeU16 | epan/dissectors/packet-interlink.c:80-85 | reading back a 16-bit word written in either byte order gives the word |
| ByteView.EncodeDecodeU16 | epan/dissectors/packet-interlink.c:80-85 | two bytes are determined by the 16-bit word they read as: the codec is a bijection |
| ByteView.DecodeEncodeU32 | epan/dissectors/packet-ctdb.c:1178-1182 | reading back a 32-bit word written in either byte order gives the word |
| ByteView.EncodeDecodeU32 | epan/dissectors/packet-ctdb.c:1178-1182 | four bytes are determined by the 32-bit word they read as |
| ByteView.U8 | epan/dissectors/packet-interlink.c:104-105 | tvb_get_guint8 succeeds exactly when the byte was captured, and yields it |
| ByteView.U16 | epan/dissectors/packet-hdcp2.c:170 | tvb_get_ntohs/letohs succeeds exactly when both bytes were captured, and yields their word |
| ByteView.U32 | epan/dissectors/packet-ctdb.c:1204-1209 | tvb_get_ntohl/letohl succeeds exactly when all four bytes were captured, and yields their word |
| ByteView.Field | epan/dissectors/packet-e100.c:82-99 | a fixed-width item succeeds exactly when all of it was captured, and the offset moves past it |
| ByteView.LengthItem | epan/dissectors/packet-ctdb.c:719-720 | an item whose u32 length is used as a gint fits exactly when ItemFits holds (for -1: at least one captured byte left, or an empty capture at offset 0); a non-negative length advances by itself, and -1 moves the offset back by one |
| ByteView.SubsetLengthCaplen | epan/dissectors/packet-e100.c:101-102 | the window exists exactly when its captured bytes exist; it has the reported length asked for, and its captured bytes are the parent's bytes, clipped to that length |
| ByteView.SubsetRemaining | epan/dissectors/packet-interlink.c:122 | the rest of the buffer from an offset within the captured bytes: the same bytes, and the reported length minus the offset |
| ByteView.TilesInside | epan/dissectors/packet-e100.c:43-51 | items that tile a range each lie inside it and are pairwise disjoint, in order |
| ByteView.U32ReadsEncoding | epan/dissectors/packet-ctdb.c:1178-1182 | a buffer holding the encoding of a word reads back that word at that offset |
| E100.LayoutTilesHeader | epan/dissectors/packet-e100.c:43-51 | the eight header fields cover bytes 0..28 contiguously, without gaps or overlap |
| E100.PayloadReported | epan/dissectors/packet-e100.c:97-102 | bytes_original, used as a gint reported length, throws exactly for the negative values other than -1 |
| E100.Dissect | epan/dissectors/packet-e100.c:54-106 | not claimed exactly when the capture is under 28 bytes, the version is not 1, or bytes_captured differs from reported - 28; an accepted frame throws exactly when it is captured short or bytes_original, read as a signed length, is negative other than -1; otherwise it claims the whole capture, its payload starts at 28, the payload's reported length is bytes_original (the rest of the frame for -1), and its captured length is the smaller of bytes_captured and that reported length |
| E100.Heuristic | epan/dissectors/packet-e100.c:108-112 | true exactly when the three tests pass, and it throws exactly when the dissector does |
| E100.DissectEncode | epan/dissectors/packet-e100.c:79-105 | an encoded header followed by its payload is accepted, the header decodes back unchanged, and the payload window holds the payload |
| E100.DissectFrame | epan/dissectors/packet-e100.c:94-102 | for a frame split into header image and payload, the window has min(captured, original) bytes of payload and the original length as reported length |
| E100.HeaderReadsBack | epan/dissectors/packet-e100.c:82-99 | every big-endian field of an encoded header, including both timestamp halves, reads back as written |
| E100.TruncatedFrameThrows | epan/dissectors/packet-e100.c:94-102 | a frame that passes the heuristic but is captured short of its reported length raises the bounds failure |
| Interlink.DecodeFlags | epan/dissectors/packet-interlink.c:175-180 | REQ_ACK is bit 0 and INC_ACK_PORT is bit 1 of the flags word; the raw word is kept |
| Interlink.TypeVersion | epan/dissectors/packet-interlink.c:104-106 | the key fits 16 bits, and its high byte is the block type and its low byte the block version |
| Interlink.ShiftOrIsPlacement | epan/dissectors/packet-interlink.c:106 | on 16-bit words, shifting a type below 256 left by 8 and or-ing in a version below 256 gives type * 256 + version |
| Interlink.TypeVersionInjective | epan/dissectors/packet-interlink.c:104-106 | different (type, version) pairs give different keys |
| Interlink.Resolve | epan/dissectors/packet-interlink.c:125-128 | a registered key gives its handler, an unregistered one gives the data handler, and there is never none |
| Interlink.HeaderEndIgnoresTree | epan/dissectors/packet-interlink.c:77-119 | both offset paths, with and without a tree, end at 16 |
| Interlink.Dissect | epan/dissectors/packet-interlink.c:54-134 | succeeds exactly when 16 bytes were captured; the payload is everything from 16, block length unused; the key comes from bytes 12 and 13, the handler is the resolved one, and the whole capture is claimed |
| Interlink.DissectIgnoresTree | epan/dissectors/packet-interlink.c:77-122 | building a tree or not gives the same dissection |
| Interlink.Heuristic | epan/dissectors/packet-interlink.c:137-153 | false under 4 bytes or without the ILNK magic; true exactly when the magic is there and the 16-byte header was captured; throws exactly when the magic is there but the header was not captured |
| Interlink.DissectEncode | epan/dissectors/packet-interlink.c:77-133 | an encoded header followed by a payload is claimed, decodes back unchanged, and hands over exactly the payload |
| Interlink.HeaderReadsBack | epan/dissectors/packet-interlink.c:78-116 | the magic and every little-endian field of an encoded header read back as written |
| RedbackLi.HeurChain | epan/dissectors/packet-redbackli.c:184-210 | every AVP header the heuristic visits lies inside the captured bytes |
| RedbackLi.ChainCons | epan/dissectors/packet-redbackli.c:188-207 | a chain is acceptable exactly when its head and its tail are, and its integer types are those of the head and the tail |
| RedbackLi.HeurWalkFollowsChain | epan/dissectors/packet-redbackli.c:184-210 | the heuristic loop rejects exactly when some AVP of the chain breaks its type rule, and otherwise has seen exactly the chain's integer types |
| RedbackLi.HeurEohStep | epan/dissectors/packet-redbackli.c:196-200 | at an End-Of-Header AVP, the loop ends, and the AVP is accepted exactly when its length is at most 1 and it is not at offset 0 |
| RedbackLi.HeurWalkStep | epan/dissectors/packet-redbackli.c:188-209 | past any other AVP, the loop goes on 2 + length further with the AVP's integer type added, or rejects if the AVP is unacceptable |
| RedbackLi.NextAvp | epan/dissectors/packet-redbackli.c:139-146 | reading an AVP header throws exactly when its two bytes, or (with a tree) its non-empty value, were not captured; it yields none exactly when the value runs past the reported bytes left |
| RedbackLi.DissectWalk | epan/dissectors/packet-redbackli.c:138-153 | the loop ends between where it started and the reported length (the AVPs it returns are stated by WalkShape, when it throws by WalkFailure) |
| RedbackLi.WalkShape | epan/dissectors/packet-redbackli.c:138-153 | the AVPs the loop consumes tile the buffer from the start to the end offset, each was read with more than two reported bytes left, holds the type and length bytes captured at its offset and ends within the reported length, only the last may be End-Of-Header, and the loop stopped for one of the source's reasons |
| RedbackLi.ShapeDeterminesWalk | epan/dissectors/packet-redbackli.c:138-153 | the shape WalkShape states pins the walk: any AVP list with that shape from the same offset is exactly the list the loop returns, ending where it ends |
| RedbackLi.ShapeUnique | epan/dissectors/packet-redbackli.c:138-153 | two AVP lists of that shape from the same offset are equal and end at the same offset |
| RedbackLi.WalkNext | epan/dissectors/packet-redbackli.c:138-153 | one step of a successful loop: it stops at once for one of its reasons, or consumes the AVP read at its offset and, unless that is End-Of-Header, continues past it |
| RedbackLi.WalkFailure | epan/dissectors/packet-redbackli.c:138-153 | the loop throws only after complete AVPs other than End-Of-Header, read from their bytes and tiling the buffer, when more than two reported bytes remain and the next AVP's header or (with a tree) its value was not captured |
| RedbackLi.WalkEoh | epan/dissectors/packet-redbackli.c:147-152 | an End-Of-Header AVP read from its bytes ends the loop having consumed just itself |
| RedbackLi.WalkCons | epan/dissectors/packet-redbackli.c:148-152 | an AVP other than End-Of-Header, read from its bytes, put in front of a walk keeps its tiling, its reading from the bytes and its stopping reason |
| RedbackLi.Dissect | epan/dissectors/packet-redbackli.c:119-159 | the AVPs and payload offset are the loop's; it throws when the loop throws or the loop ended past the captured bytes; the IP payload is everything from the payload offset on, with the reported length left after it, and the whole capture is claimed |
| RedbackLi.DissectShape | epan/dissectors/packet-redbackli.c:138-156 | the AVPs consumed tile bytes 0 to the payload offset, each read under the loop guard from the bytes at its offset, and the loop stopped there for one of the source's reasons |
| RedbackLi.EncodedLaidOut | epan/dissectors/packet-redbackli.c:139-152 | the wire image of AVPs puts each type and length byte where the loop reads them, whatever follows the image |
| RedbackLi.WalkStep | epan/dissectors/packet-redbackli.c:139-152 | one loop step over a captured AVP other than End-Of-Header moves 2 + length further and adds that AVP in front of what the rest yields |
| RedbackLi.WalkAtEoh | epan/dissectors/packet-redbackli.c:139-152 | at an empty End-Of-Header with more bytes behind it, the loop consumes it and stops just past it |
| RedbackLi.WalkLaidOut | epan/dissectors/packet-redbackli.c:138-153 | over encoded AVPs, an empty End-Of-Header and more bytes, the loop finds every AVP header written and ends just past the End-Of-Header |
| RedbackLi.WalkLaidOutBare | epan/dissectors/packet-redbackli.c:138-153 | with only the End-Of-Header left after the AVPs, the loop finds the AVP headers and stops in front of it |
| RedbackLi.DissectEncoded | epan/dissectors/packet-redbackli.c:119-159 | round trip: AVPs, an empty End-Of-Header and a non-empty IP packet dissect into exactly the AVP headers written plus the End-Of-Header, and the IP packet is handed on whole with its reported length |
| RedbackLi.TrailingEohNotConsumed | epan/dissectors/packet-redbackli.c:138 | with no IP packet after it, the End-Of-Header is not consumed, because only two bytes remain; those two bytes go to IP |
| RedbackLi.Heuristic | epan/dissectors/packet-redbackli.c:166-222 | false exactly when the capture is under 20 bytes, some AVP of the chain breaks its type rule, or a SEQNO, LIID or SESSID AVP is missing; otherwise it throws exactly when the dissector does |
| RedbackLi.HeurChainLinked | epan/dissectors/packet-redbackli.c:208-209 | each AVP of the heuristic chain starts 2 + length after the previous one, from offset 0, so the walk always moves forward |
| RedbackLi.BadIntAvpRejects | epan/dissectors/packet-redbackli.c:189-195 | a SEQNO, LIID or SESSID AVP of length other than 4 anywhere in the chain makes the heuristic false |
| RedbackLi.LeadingEohRejects | epan/dissectors/packet-redbackli.c:196-198 | a buffer that starts with End-Of-Header is not claimed |
| Hdcp2.BuildTable | epan/dissectors/packet-hdcp2.c:373-378 | every ID inserted so far is in the lookup map |
| Hdcp2.MsgTableContents | epan/dissectors/packet-hdcp2.c:111-124 | the lookup map holds exactly the twelve declared IDs with their declared lengths, AKE_Send_Cert being 523 |
| Hdcp2.KnownIdsBelowMax | epan/dissectors/packet-hdcp2.c:76 | every known ID is at most ID_MAX |
| Hdcp2.BodyMatchesTable | epan/dissectors/packet-hdcp2.c:111-124 | for every known ID, the widths of the fields its case decodes sum to its table length, and none is empty |
| Hdcp2.BodyWidthsPositive | epan/dissectors/packet-hdcp2.c:165-268 | no field any case adds is empty |
| Hdcp2.CertBodyWidth | epan/dissectors/packet-hdcp2.c:194-213 | the AKE_Send_Cert fields add up to 1 + CERT_RX_LEN |
| Hdcp2.InfoBodyWidths | epan/dissectors/packet-hdcp2.c:169-193 | the transmitter and receiver info fields add up to 5 |
| Hdcp2.ShortBodyWidths | epan/dissectors/packet-hdcp2.c:166-168 | the fields of the other nine messages add up to their table lengths |
| Hdcp2.FlattenLength | epan/dissectors/packet-hdcp2.c:163-265 | chunks of the fields' widths cover as many bytes as the fields |
| Hdcp2.Split | epan/dissectors/packet-hdcp2.c:159-265 | the cursor walk succeeds exactly when all fields were captured; its chunks have the fields' widths and laid end to end are the bytes walked |
| Hdcp2.FlattenInjective | epan/dissectors/packet-hdcp2.c:163-265 | chunks of given widths are determined by their concatenation |
| Hdcp2.SplitFlatten | epan/dissectors/packet-hdcp2.c:163-265 | walking the concatenation of correctly sized chunks gives back the chunks |
| Hdcp2.ReservedWarning | epan/dissectors/packet-hdcp2.c:205-210 | the reserved word is flagged exactly when it is neither 0 nor 0x1000 |
| Hdcp2.ReservedMaskIsArithmetic | epan/dissectors/packet-hdcp2.c:208 | on 16-bit words, `& 0xEFFF` is non-zero exactly when bits 0 to 11 or 13 to 15 are set |
| Hdcp2.LowBit | epan/dissectors/packet-hdcp2.c:188-189 | the locality-precompute flag is bit 0 of its word |
| Hdcp2.InfoDetail | epan/dissectors/packet-hdcp2.c:168-236 | LENGTH is the big-endian word at bytes 1-2 and VERSION is byte 3; the info message flags a LENGTH below 6 and a VERSION other than 2, and its locality precompute flag is bit 0 of the big-endian word at bytes 4-5 |
| Hdcp2.Annotate | epan/dissectors/packet-hdcp2.c:165-268 | only the two info messages get info details, read from their own bytes; only AKE_Send_Cert gets certificate details, with the repeater flag as bit 0 of byte 1 and the reserved word as the big-endian word at bytes 138-139, flagged when neither 0 nor 0x1000 |
| Hdcp2.Dissect | epan/dissectors/packet-hdcp2.c:127-272 | not claimed when empty, when the ID is above 31, or when it is unknown or its length differs from the reported bytes after it; an accepted message throws exactly when captured short, and otherwise is split into its ID and its case's fields covering the whole buffer, with the details its ID's checks read from the bytes |
| Hdcp2.Heuristic | epan/dissectors/packet-hdcp2.c:274-278 | true exactly when the plausibility checks pass, and it throws exactly when an accepted message was captured short |
| Hdcp2.DissectEncode | epan/dissectors/packet-hdcp2.c:141-271 | a known ID followed by body chunks of its fields' widths is accepted and split back into the same chunks |
| CtdbHash.Shift | epan/dissectors/packet-ctdb.c:668 | every byte is shifted by less than 24 bits |
| CtdbHash.TermFitsInt | epan/dissectors/packet-ctdb.c:668 | a byte shifted by less than 24 bits stays below 2^31, so the int shift never overflows |
| CtdbHash.KeyHash | epan/dissectors/packet-ctdb.c:661-671 | the hash is a 32-bit word |
| CtdbHash.AccumulateClosedForm | epan/dissectors/packet-ctdb.c:667-668 | wrapping after every addition gives the same value as summing all shifted bytes onto 0x238F13AF * len and wrapping once |
| CtdbHash.KeyHashClosedForm | epan/dissectors/packet-ctdb.c:661-671 | the hash is 1103515243 * (0x238F13AF * len + sum of shifted bytes) + 12345, taken mod 2^32 once |
| CtdbHash.EmptyKeyHash | epan/dissectors/packet-ctdb.c:667-670 | the empty key hashes to 12345 |
| CtdbHash.HashRead | epan/dissectors/packet-ctdb.c:661-671 | hashing a key in the buffer succeeds exactly when the key is empty or was captured, and gives the hash of its bytes |
| CtdbHash.ComputeKeyHash | epan/dissectors/packet-ctdb.c:661-671 | the byte-by-byte loop, with its bounds-checked reads, computes HashRead |
| CtdbHash.MaskIsArithmetic | epan/dissectors/packet-ctdb.c:739 | on a 32-bit word, `& 0xfffff8` keeps the multiple of 8 below the value's low 24 bits |
| CtdbHash.Align8 | epan/dissectors/packet-ctdb.c:739 | the intended fix-up is the least multiple of 8 not below the offset |
| CtdbHash.AlignAgreesBelow24Bits | epan/dissectors/packet-ctdb.c:739 | while offset + 7 is below 2^24 the written mask equals the intended rounding |
| CtdbHash.AlignAsWrittenWrapsAt24Bits | epan/dissectors/packet-ctdb.c:739 | at offset 2^24 the written mask gives 0, where the intended rounding gives 2^24 |
| CtdbHash.AlignAtCallSites | epan/dissectors/packet-ctdb.c:795 | at every call site the offset is 36, and both forms give 40 |
| CtdbControls.SentinelAt | epan/dissectors/packet-ctdb.c:586-589 | the position of the first all-zero row at or after a start, with no terminator before it |
| CtdbControls.FindFirstMatch | epan/dissectors/packet-ctdb.c:582-600 | the search returns the request or reply handler of the first row before the terminator whose opcode matches |
| CtdbControls.FindNoMatch | epan/dissectors/packet-ctdb.c:582-600 | without a matching row before the terminator, the search finds no handler |
| CtdbControls.ControlTableLookup | epan/dissectors/packet-ctdb.c:508-600 | for every opcode: only PROCESS_EXISTS has a request handler; GET_RECMASTER, GET_RECMODE, GET_NODEMAP and PROCESS_EXISTS have reply handlers; opcode 0 is not taken for the terminator |
| CtdbControls.NodeWalk | epan/dissectors/packet-ctdb.c:453-465 | the node loop succeeds exactly when the last node's address was captured, and yields one node per count |
| CtdbControls.NodeFields | epan/dissectors/packet-ctdb.c:455-463 | one node's three items need its first 16 bytes captured |
| CtdbControls.NodesAt | epan/dissectors/packet-ctdb.c:453-465 | the reference reading of a node map has one node per count, node k being the one 24 * k bytes in |
| CtdbControls.NodeWalkIsNodesAt | epan/dissectors/packet-ctdb.c:453-465 | the node loop reads exactly the reference node map, and fails exactly when it was not captured |
| CtdbControls.NodesAtCons | epan/dissectors/packet-ctdb.c:453-465 | a node map is its first node followed by the map 24 bytes further on |
| CtdbControls.NodemapReplyInfo | epan/dissectors/packet-ctdb.c:434-468 | the count must be captured; a count above 500 stops right after it; otherwise the offset ends at 4 + 24 * count past the start |
| CtdbControls.NodemapReplyReadsNodes | epan/dissectors/packet-ctdb.c:440-467 | a node map of at most 500 nodes holds exactly the reference reading of its nodes, or fails when they were not captured |
| CtdbControls.Run | epan/dissectors/packet-ctdb.c:408-497 | the recmaster, recmode and exists replies show the status and read nothing; the exists request reads the pid; the node map reply runs the node walk |
| Ctdb.MagicBytes | epan/dissectors/packet-ctdb.c:1138-1147 | the two accepted values of the word at offset 4 are the magic written big-endian and little-endian |
| Ctdb.DetectOrderIsMagic | epan/dissectors/packet-ctdb.c:1135-1147 | a byte order is detected exactly when 8 bytes were captured and bytes 4..8 hold the magic written in that order |
| Ctdb.EncodeWordsAt | epan/dissectors/packet-ctdb.c:1159-1210 | word i of an image of words sits at byte 4 * i |
| Ctdb.WordReadsBack | epan/dissectors/packet-ctdb.c:1159-1210 | each word of an image of words reads back as written |
| Ctdb.DecodeEncodeHeader | epan/dissectors/packet-ctdb.c:1159-1210 | a header image in either byte order reads back as the same header |
| Ctdb.LowWordsReadBack | epan/dissectors/packet-ctdb.c:1161-1174 | length, magic, version and generation read back as written |
| Ctdb.HighWordsReadBack | epan/dissectors/packet-ctdb.c:1177-1210 | opcode, dst, src and reqid read back as written |
| Ctdb.KeyAndData | epan/dissectors/packet-ctdb.c:1084-1089 | the key and data items fit exactly when KeyDataFits holds, and the result is the hash of the key's bytes |
| Ctdb.CallFields | epan/dissectors/packet-ctdb.c:1042-1089 | a REQ_CALL body is read exactly when its six words, key and data fit; it yields the IMMEDIATE bit and the key hash |
| Ctdb.ReqCallBody | epan/dissectors/packet-ctdb.c:1035-1123 | on the first pass the call is recorded under (reqid, caller) with its key hash, its frame and no response; on later passes it is looked up and nothing changes; nothing changes when the body is cut short |
| Ctdb.ReplyCallBody | epan/dissectors/packet-ctdb.c:700-724 | succeeds exactly when status and data length were captured and the data fits; it shows the status |
| Ctdb.DmasterReplyFields | epan/dissectors/packet-ctdb.c:733-766 | a REPLY_DMASTER body is read exactly when db id, the aligned 64-bit rsn, the lengths, key and data fit |
| Ctdb.DmasterReplyBody | epan/dissectors/packet-ctdb.c:726-781 | the call recorded under (reqid, dst) gets this frame as its response, on every pass; the controls are untouched |
| Ctdb.ReqDmasterBody | epan/dissectors/packet-ctdb.c:783-846 | a REQ_DMASTER body is read exactly when its fields fit, and shows the call recorded under (reqid, dmaster) |
| Ctdb.ControlRequestFields | epan/dissectors/packet-ctdb.c:859-899 | a REQ_CONTROL body is read exactly when its fields and non-empty data fit; it yields the control opcode |
| Ctdb.RunControl | epan/dissectors/packet-ctdb.c:932-936 | the control table gives a handler for the opcode and direction exactly when one is run; the result fails or shows exactly what that handler's run yields, and only a short PROCESS_EXISTS request or a bad GET_NODEMAP reply can fail |
| Ctdb.ReqControlBody | epan/dissectors/packet-ctdb.c:850-941 | on the first pass the control is recorded under (reqid, src, dst) before its payload is decoded, so a short payload fails but keeps the record, and a success shows what the table's request handler for this opcode yields; later passes change nothing, show nothing without a record, and otherwise fail or show exactly what the request handler of the RECORDED opcode yields |
| Ctdb.ControlReplyFields | epan/dissectors/packet-ctdb.c:979-1018 | a REPLY_CONTROL body is read exactly when status, lengths, non-empty data and non-empty error fit; it yields the status |
| Ctdb.ReplyControlBody | epan/dissectors/packet-ctdb.c:943-1028 | a reply is matched under (reqid, dst, src); without a match nothing is read or changed; on the first pass a match gets this frame as response before any field is read; a success carries the status word, the updated record and exactly what the reply handler of the recorded opcode yields |
| Ctdb.BodyOf | epan/dissectors/packet-ctdb.c:1216-1239 | no record is removed, only the packet's own records are added or changed, later passes add no key, and bodiless opcodes change nothing |
| Ctdb.Dissect | epan/dissectors/packet-ctdb.c:1125-1242 | not claimed exactly when no magic is found; a claimed packet short of 32 bytes throws; every opcode is accepted, and one without a body gives the decoded header and nothing else |
| Ctdb.DissectState | epan/dissectors/packet-ctdb.c:1216-1241 | a packet with a header ends in the state its body leaves, and fails or succeeds as its body does |
| Ctdb.DissectTouchesOwnKeys | epan/dissectors/packet-ctdb.c:768-1106 | a packet only adds records of its own request (the control insert at 901-918, the call insert at 1092-1106), changes only records of its own endpoints (the reply lookups at 768-778 and 953-968), and removes none |
| Ctdb.Heuristic | epan/dissectors/packet-ctdb.c:1244-1248 | true exactly when the magic is found; it fails and changes the state exactly as the dissector does |
| Ctdb.DissectEncodeHeader | epan/dissectors/packet-ctdb.c:1135-1241 | a header encoded in either byte order with the magic and a bodiless opcode is dissected back to the same header and order, whatever follows, and the tables are unchanged |
| Ctdb.ControlRequestRecorded | epan/dissectors/packet-ctdb.c:901-918 | a first-pass control request is recorded under (reqid, src, dst) with its control opcode, its frame and no response |
| Ctdb.ControlReplyCompletes | epan/dissectors/packet-ctdb.c:953-968 | a first-pass control reply stores its frame as the response of the request found under (reqid, dst, src), keeping the rest |
| Ctdb.DissectReplyControl | epan/dissectors/packet-ctdb.c:1236-1238 | a REPLY_CONTROL packet ends as its reply body does |
| Ctdb.ControlRequestThenReply | epan/dissectors/packet-ctdb.c:901-968 | a request then its reply, on the first pass, leave the exchange recorded with the control opcode and both frames, even when the reply is cut short |
| Ctdb.CallRequestThenDmasterReply | epan/dissectors/packet-ctdb.c:768-778 | a call recorded on the first pass is completed by the REPLY_DMASTER sent back to the caller: same key hash and request frame, the reply's frame as response |
| Ctdb.UnmatchedControlReply | epan/dissectors/packet-ctdb.c:960-964 | a control reply without a recorded request is accepted, shows nothing after the header and changes nothing |
| Ctdb.CallRequestRevisited | epan/dissectors/packet-ctdb.c:1107-1116 | a second pass over a call request changes nothing and succeeds exactly when its fields fit; it then finds the record the first pass made |

## Left out

- Tree, column and expert-info rendering, and the `value_string` name tables. They are presentation only. Expert warnings appear as booleans in the dissection results (HDCP2 `Detail`, CTDB too-many-nodes).
- Protocol, field, heuristic and decode-as registration (`proto_register_*`, `proto_reg_handoff_*`). This is framework configuration. The HDCP2 message map is modelled through its insertion loop, and the Interlink sub-dissector table through an immutable map with a default.
- Downstream dissectors: Ethernet after E100, IP after Redback LI, Interlink sub-dissectors and `data`. These are calls into code this model does not contain. Each dissection records only the handler chosen and the window handed to it.
- The tvbuff and proto-tree framework (`tvbuff.c`, `proto.c`, `ptvcursor`) is not part of this model. Its bounds behaviour is stated in `ByteView`: an exception becomes `Failure(OutOfBounds)`, and a length used as `gint` follows the `-1` rule.
- The wmem allocation scopes and the trees that key the CTDB tables. They are modelled as two Dafny maps with equality keys. The frame number and the `visited` flag are parameters.
- Timestamps and the request/response time display (`nstime_delta`, `req_time`), and the `ctdb_display_*` tree output. This is presentation of data the model already records.
- Redback LI AVP values: the per-type tree items are only bounds-checked. Their contents are not decoded.
- CtdbHash.ComputeKeyHash: reads byte `off + i` with unbounded integers. The source's `int` offset plus `guint32` index cannot wrap for buffers under 2^31 bytes.
- Ctdb.DmasterReplyFields: aligns with the intended `Align8`, not the 24-bit mask (see Findings); the two agree at offset 36, the only one this body reaches.
- Ctdb.ReqDmasterBody: aligns with the intended `Align8`, not the 24-bit mask (see Findings); the two agree at offset 36, the only one this body reaches.
- Ctdb.ControlRequestFields: places the 64-bit service id at the intended `Align8(36)`, not at the 24-bit mask's result; the two agree at offset 36.

## Findings

| source | as written | input that shows it | evidently intended | confidence | as-written member | corrected member |
|---|---|---|---|---|---|---|
| epan/dissectors/packet-ctdb.c:739 | `offset=(offset+7)&0xfffff8` masks with 24 bits, so any offset of 2^24 or more loses its high bits and moves backwards | offset 0x1000000 aligns to 0 instead of 0x1000000 (latent: the same expression at lines 795 and 873 is only ever reached with offset 36) | round up to the next multiple of 8 | not executed | CtdbHash.AlignAsWritten (shown by CtdbHash.AlignAsWrittenWrapsAt24Bits) | CtdbHash.Align8 (agreement below 2^24: CtdbHash.AlignAgreesBelow24Bits) |

=== FILE: byteview.dfy ===
/** A read-only window over captured packet bytes, the model of Wireshark's
    tvbuff.  The captured bytes are `data`; `reported` is the length the wire
    claimed.  Every accessor is bounds-checked against the captured bytes and
    reports a violation as `Failure(OutOfBounds)` instead of throwing. */
module ByteView {
  import opened Wrappers

  /** An octet; bit operations of the source are written out on `bv16` where they occur. */
  type byte = x: int | 0 <= x < 0x100

  /** Buffer lengths and offsets are C `gint`s in the framework. */
  const MaxLength: nat := 0x7FFF_FFFF

  const U16Limit: nat := 0x1_0000
  const U32Limit: nat := 0x1_0000_0000

  /** The framework's bounds exceptions, collapsed into one error value. */
  datatype Error = OutOfBounds

  datatype ByteOrder = BigEndian | LittleEndian

  datatype RawView = RawView(data: seq<byte>, reported: nat)

  /** The captured bytes never exceed the reported length. */
  type View = v: RawView | |v.data| <= v.reported <= MaxLength
    witness RawView([], 0)

  function Captured(v: View): nat {
    |v.data|
  }

  /** Whether `len` bytes starting at `off` were captured (tvb_bytes_exist). */
  predicate BytesExist(v: View, off: nat, len: nat) {
    off + len <= |v.data|
  }

  /** The unsigned value of a 2-byte sequence in the given byte order. */
  function DecodeU16(b: seq<byte>, order: ByteOrder): (x: nat)
    requires |b| == 2
    ensures x < U16Limit
  {
    match order
    case BigEndian => b[0] as int * 0x100 + b[1]
    case LittleEndian => b[1] as int * 0x100 + b[0]
  }

  /** The unsigned value of a 4-byte sequence in the given byte order. */
  function DecodeU32(b: seq<byte>, order: ByteOrder): (x: nat)
    requires |b| == 4
    ensures x < U32Limit
  {
    match order
    case BigEndian =>
      b[0] as int * 0x100_0000 + b[1] as int * 0x1_0000 + b[2] as int * 0x100 + b[3]
    case LittleEndian =>
      b[3] as int * 0x100_0000 + b[2] as int * 0x1_0000 + b[1] as int * 0x100 + b[0]
  }

  /** The bytes a writer of the given byte order puts on the wire for `x`. */
  function EncodeU16(x: nat, order: ByteOrder): (b: seq<byte>)
    requires x < U16Limit
    ensures |b| == 2
  {
    var hi := x / 0x100;
    var lo := x % 0x100;
    match order
    case BigEndian => [hi, lo]
    case LittleEndian => [lo, hi]
  }

  function EncodeU32(x: nat, order: ByteOrder): (b: seq<byte>)
    requires x < U32Limit
    ensures |b| == 4
  {
    var q1 := x / 0x100;
    var q2 := q1 / 0x100;
    var b0 := x % 0x100;
    var b1 := q1 % 0x100;
    var b2 := q2 % 0x100;
    var b3 := q2 / 0x100;
    match order
    case BigEndian => [b3, b2, b1, b0]
    case LittleEndian => [b0, b1, b2, b3]
  }

  lemma DecodeEncodeU16(x: nat, order: ByteOrder)
    requires x < U16Limit
    ensures DecodeU16(EncodeU16(x, order), order) == x
  {
  }

  lemma EncodeDecodeU16(b: seq<byte>, order: ByteOrder)
    requires |b| == 2
    ensures EncodeU16(DecodeU16(b, order), order) == b
  {
  }

  lemma DecodeEncodeU32(x: nat, order: ByteOrder)
    requires x < U32Limit
    ensures DecodeU32(EncodeU32(x, order), order) == x
  {
    var q1 := x / 0x100;
    var q2 := q1 / 0x100;
    var b0 := x % 0x100;
    var b1 := q1 % 0x100;
    var b2 := q2 % 0x100;
    var b3 := q2 / 0x100;
    assert x == q1 * 0x100 + b0;
    assert q1 == q2 * 0x100 + b1;
    assert q2 == b3 * 0x100 + b2;
    assert x == b3 * 0x100_0000 + b2 * 0x1_0000 + b1 * 0x100 + b0;
  }

  lemma EncodeDecodeU32(b: seq<byte>, order: ByteOrder)
    requires |b| == 4
    ensures EncodeU32(DecodeU32(b, order), order) == b
  {
    match order
    case BigEndian => Digits(b[0], b[1], b[2], b[3]);
    case LittleEndian => Digits(b[3], b[2], b[1], b[0]);
  }

  /** Base-256 digits are recovered by repeated division. */
  lemma Digits(d3: byte, d2: byte, d1: byte, d0: byte)
    ensures var x := d3 as int * 0x100_0000 + d2 as int * 0x1_0000 + d1 as int * 0x100 + d0 as int;
      var q1 := x / 0x100;
      var q2 := q1 / 0x100;
      && x % 0x100 == d0 && q1 % 0x100 == d1 && q2 % 0x100 == d2 && q2 / 0x100 == d3
  {
    var q2 := d3 as int * 0x100 + d2 as int;
    var q1 := q2 * 0x100 + d1 as int;
    var x := q1 * 0x100 + d0 as int;
    assert x == d3 as int * 0x100_0000 + d2 as int * 0x1_0000 + d1 as int * 0x100 + d0 as int;
    assert x / 0x100 == q1 && x % 0x100 == d0;
    assert q1 / 0x100 == q2 && q1 % 0x100 == d1;
    assert q2 / 0x100 == d3 && q2 % 0x100 == d2;
  }

  /** The byte at `off`, once the caller knows it was captured. */
  function GetU8(v: View, off: nat): (x: nat)
    requires BytesExist(v, off, 1)
    ensures x < 0x100
  {
    v.data[off]
  }

  function GetU16(v: View, off: nat, order: ByteOrder): (x: nat)
    requires BytesExist(v, off, 2)
    ensures x < U16Limit
  {
    DecodeU16(v.data[off..off + 2], order)
  }

  function GetU32(v: View, off: nat, order: ByteOrder): (x: nat)
    requires BytesExist(v, off, 4)
    ensures x < U32Limit
  {
    DecodeU32(v.data[off..off + 4], order)
  }

  /** tvb_get_guint8: one captured byte, or a bounds failure. */
  function U8(v: View, off: nat): (r: Result<nat, Error>)
    ensures r.Success? <==> BytesExist(v, off, 1)
    ensures r.Success? ==> r.value == GetU8(v, off)
  {
    if BytesExist(v, off, 1) then Success(GetU8(v, off)) else Failure(OutOfBounds)
  }

  /** tvb_get_ntohs / tvb_get_letohs. */
  function U16(v: View, off: nat, order: ByteOrder): (r: Result<nat, Error>)
    ensures r.Success? <==> BytesExist(v, off, 2)
    ensures r.Success? ==> r.value == GetU16(v, off, order)
  {
    if BytesExist(v, off, 2) then Success(GetU16(v, off, order)) else Failure(OutOfBounds)
  }

  /** tvb_get_ntohl / tvb_get_letohl. */
  function U32(v: View, off: nat, order: ByteOrder): (r: Result<nat, Error>)
    ensures r.Success? <==> BytesExist(v, off, 4)
    ensures r.Success? ==> r.value == GetU32(v, off, order)
  {
    if BytesExist(v, off, 4) then Success(GetU32(v, off, order)) else Failure(OutOfBounds)
  }

  /** The bounds test the framework applies to every field handed to the
      protocol tree, built or not: the field must lie in the captured bytes.
      Yields the offset just past the field. */
  function Field(v: View, off: nat, len: nat): (r: Result<nat, Error>)
    ensures r.Success? <==> BytesExist(v, off, len)
    ensures r.Success? ==> r.value == off + len
  {
    if BytesExist(v, off, len) then Success(off + len) else Failure(OutOfBounds)
  }

  /** Whether a byte-string field whose `guint32` length the framework
      receives as a `gint` can be added at `off`: 0xFFFFFFFF becomes -1,
      "the rest of the captured bytes", which must hold at least one byte
      unless nothing at all was captured; any other value of 2^31 or more is
      negative and is refused; otherwise the field must be captured. */
  predicate ItemFits(v: View, off: nat, len: nat) {
    if len == 0xFFFF_FFFF then off < |v.data| || (|v.data| == 0 && off == 0)
    else len < 0x8000_0000 && BytesExist(v, off, len)
  }

  /** Adds such a field, failing where the framework throws.  Yields the
      offset the caller reaches by adding the length to its `int` offset in
      32-bit unsigned arithmetic: one byte back for -1. */
  function LengthItem(v: View, off: nat, len: nat): (r: Result<int, Error>)
    requires len < U32Limit
    ensures r.Success? <==> ItemFits(v, off, len)
    ensures r.Success? && len < 0x8000_0000 ==> r.value == off + len
    ensures r.Success? && len == 0xFFFF_FFFF ==> r.value == off - 1
  {
    if len == 0xFFFF_FFFF then
      if off < |v.data| || (|v.data| == 0 && off == 0) then Success(off - 1) else Failure(OutOfBounds)
    else if len >= 0x8000_0000 then Failure(OutOfBounds)
    else if BytesExist(v, off, len) then Success(off + len)
    else Failure(OutOfBounds)
  }

  /** tvb_new_subset_length_caplen: a window of `caplen` captured bytes at
      `off` that claims `replen` bytes on the wire.  The captured part is cut
      back to the reported length so that the window stays a View. */
  function SubsetLengthCaplen(v: View, off: nat, caplen: nat, replen: nat): (r: Result<View, Error>)
    requires replen <= MaxLength
    ensures r.Success? <==> BytesExist(v, off, caplen)
    ensures r.Success? ==> r.value.reported == replen
    ensures r.Success? ==> |r.value.data| == if caplen <= replen then caplen else replen
    ensures r.Success? ==> r.value.data == v.data[off..off + |r.value.data|]
  {
    if !BytesExist(v, off, caplen) then Failure(OutOfBounds)
    else
      var n := if caplen <= replen then caplen else replen;
      Success(RawView(v.data[off..off + n], replen))
  }

  /** tvb_new_subset_remaining: everything from `off` to the end. */
  function SubsetRemaining(v: View, off: nat): (r: Result<View, Error>)
    ensures r.Success? <==> off <= |v.data|
    ensures r.Success? ==> r.value.data == v.data[off..]
    ensures r.Success? ==> r.value.reported + off == v.reported
  {
    if off <= |v.data| then Success(RawView(v.data[off..], v.reported - off))
    else Failure(OutOfBounds)
  }

  /** Offset and width of a region of the buffer. */
  datatype Span = Span(offset: nat, len: nat)

  function SpanOf(s: Span): Span {
    s
  }

  /** The regions of `items` cover [start, end) one after another, without
      gap or overlap, each at least one byte wide. */
  predicate Tiles<T>(items: seq<T>, span: T -> Span, start: nat, end: nat)
    decreases |items|
  {
    if items == [] then start == end
    else
      && span(items[0]).offset == start
      && 0 < span(items[0]).len
      && Tiles(items[1..], span, start + span(items[0]).len, end)
  }

  /** Every tile lies inside [start, end), and tiles do not overlap. */
  lemma {:induction false} TilesInside<T>(items: seq<T>, span: T -> Span, start: nat, end: nat)
    requires Tiles(items, span, start, end)
    ensures start <= end
    ensures forall i :: 0 <= i < |items| ==>
      start <= span(items[i]).offset && span(items[i]).offset + span(items[i]).len <= end
    ensures forall i, j :: 0 <= i < j < |items| ==>
      span(items[i]).offset + span(items[i]).len <= span(items[j]).offset
  {
    if items != [] {
      var next := start + span(items[0]).len;
      TilesInside(items[1..], span, next, end);
      forall i | 0 <= i < |items|
        ensures start <= span(items[i]).offset && span(items[i]).offset + span(items[i]).len <= end
      {
        if i > 0 {
          assert items[i] == items[1..][i - 1];
        }
      }
      forall i, j | 0 <= i < j < |items|
        ensures span(items[i]).offset + span(items[i]).len <= span(items[j]).offset
      {
        assert items[j] == items[1..][j - 1];
        if i > 0 {
          assert items[i] == items[1..][i - 1];
        }
      }
    }
  }

  /** A wire image with `x` encoded at `off` reads back as `x`. */
  lemma {:induction false} U32ReadsEncoding(v: View, off: nat, x: nat, order: ByteOrder)
    requires x < U32Limit
    requires off + 4 <= |v.data|
    requires v.data[off..off + 4] == EncodeU32(x, order)
    ensures GetU32(v, off, order) == x
  {
    DecodeEncodeU32(x, order);
  }

  lemma {:induction false} U16ReadsEncoding(v: View, off: nat, x: nat, order: ByteOrder)
    requires x < U16Limit
    requires off + 2 <= |v.data|
    requires v.data[off..off + 2] == EncodeU16(x, order)
    ensures GetU16(v, off, order) == x
  {
    DecodeEncodeU16(x, order);
  }
}

=== FILE: ctdb.dfy ===
/** The CTDB dissector: byte-order detection from the magic word, the
    32-byte header, the bodies of the call, dmaster and control messages,
    and the tables that link a request to its response across the frames
    of a capture.  The tables live for the whole capture file; they are a
    `State` value threaded from frame to frame, and `Frame.visited` tells
    a first pass over a frame from a later one. */
module Ctdb {
  import opened Wrappers
  import opened ByteView
  import opened CtdbHash
  import opened CtdbControls

  /** "CTDB" read as a big-endian word. */
  const Magic: nat := 0x43544442
  const HeaderLen: nat := 32

  const ReqCall: nat := 0
  const ReplyCall: nat := 1
  const ReqDmaster: nat := 2
  const ReplyDmaster: nat := 3
  const ReplyError: nat := 4
  const ReqMessage: nat := 5
  const ReqControl: nat := 7
  const ReplyControl: nat := 8

  /** The opcodes whose body is dissected. */
  const BodyOpcodes: set<nat> := {ReqCall, ReplyCall, ReqDmaster, ReplyDmaster, ReqControl, ReplyControl}

  /** The opcodes whose dissection may touch the matching tables. */
  const MatchingOpcodes: set<nat> := {ReqCall, ReplyDmaster, ReqControl, ReplyControl}

  /** The byte order of a packet, from the little-endian word at offset 4:
      the magic as written by a big-endian or a little-endian sender. */
  function DetectOrder(v: View): Option<ByteOrder> {
    if |v.data| < 8 then None
    else
      var word := GetU32(v, 4, LittleEndian);
      if word == 0x42445443 then Some(BigEndian)
      else if word == 0x43544442 then Some(LittleEndian)
      else None
  }

  /** The magic on the wire, in either byte order. */
  lemma MagicBytes()
    ensures EncodeU32(Magic, BigEndian) == [0x43, 0x54, 0x44, 0x42]
    ensures EncodeU32(Magic, LittleEndian) == [0x42, 0x44, 0x54, 0x43]
  {
  }

  /** A byte order is detected exactly when bytes 4..8 hold the magic
      written in that order. */
  lemma DetectOrderIsMagic(v: View, order: ByteOrder)
    ensures DetectOrder(v) == Some(order)
      <==> |v.data| >= 8 && v.data[4..8] == EncodeU32(Magic, order)
  {
    MagicBytes();
    if |v.data| >= 8 {
      var b := v.data[4..8];
      var w := GetU32(v, 4, LittleEndian);
      assert w == b[3] as int * 0x100_0000 + b[2] as int * 0x1_0000 + b[1] as int * 0x100 + b[0] as int;
      Digits(b[3], b[2], b[1], b[0]);
      if w == 0x42445443 {
        assert b == [0x43, 0x54, 0x44, 0x42];
      } else if w == 0x43544442 {
        assert b == [0x42, 0x44, 0x54, 0x43];
      } else {
        assert b != [0x43, 0x54, 0x44, 0x42];
        assert b != [0x42, 0x44, 0x54, 0x43];
      }
    }
  }

  datatype Header = Header(
    length: nat, magic: nat, version: nat, generation: nat,
    opcode: nat, dst: nat, src: nat, reqid: nat)

  predicate FitsWidths(h: Header) {
    && h.length < U32Limit && h.magic < U32Limit && h.version < U32Limit
    && h.generation < U32Limit && h.opcode < U32Limit && h.dst < U32Limit
    && h.src < U32Limit && h.reqid < U32Limit
  }

  /** The eight header words, in the packet's byte order. */
  function DecodeHeader(v: View, order: ByteOrder): (h: Header)
    requires BytesExist(v, 0, HeaderLen)
    ensures FitsWidths(h)
  {
    Header(
      GetU32(v, 0, order), GetU32(v, 4, order), GetU32(v, 8, order), GetU32(v, 12, order),
      GetU32(v, 16, order), GetU32(v, 20, order), GetU32(v, 24, order), GetU32(v, 28, order))
  }

  /** The header words in wire order. */
  function Words(h: Header): (ws: seq<nat>)
    ensures |ws| == 8
  {
    [h.length, h.magic, h.version, h.generation, h.opcode, h.dst, h.src, h.reqid]
  }

  predicate AllWords(ws: seq<nat>) {
    forall i :: 0 <= i < |ws| ==> ws[i] < U32Limit
  }

  /** The wire image of a sequence of 32-bit words. */
  function EncodeWords(ws: seq<nat>, order: ByteOrder): (b: seq<byte>)
    requires AllWords(ws)
    ensures |b| == 4 * |ws|
  {
    if ws == [] then [] else EncodeU32(ws[0], order) + EncodeWords(ws[1..], order)
  }

  /** Word `i` sits at byte 4 * i of the image. */
  lemma {:induction false} EncodeWordsAt(ws: seq<nat>, order: ByteOrder, i: nat)
    requires AllWords(ws) && i < |ws|
    ensures EncodeWords(ws, order)[4 * i..4 * i + 4] == EncodeU32(ws[i], order)
  {
    var a := EncodeU32(ws[0], order);
    var rest := EncodeWords(ws[1..], order);
    assert EncodeWords(ws, order) == a + rest;
    if i == 0 {
      assert (a + rest)[0..4] == a;
    } else {
      EncodeWordsAt(ws[1..], order, i - 1);
      assert ws[1..][i - 1] == ws[i];
      SliceAfterPrefix(a, rest, 4 * i, 4 * i + 4);
    }
  }

  /** A slice lying past the first part of a concatenation is a slice of
      the second part. */
  lemma SliceAfterPrefix(a: seq<byte>, b: seq<byte>, lo: nat, hi: nat)
    requires |a| <= lo <= hi <= |a| + |b|
    ensures (a + b)[lo..hi] == b[lo - |a|..hi - |a|]
  {
  }

  /** The wire image of a header. */
  function EncodeHeader(h: Header, order: ByteOrder): (b: seq<byte>)
    requires FitsWidths(h)
    ensures |b| == HeaderLen
  {
    EncodeWords(Words(h), order)
  }

  /** A packet the dissector accepts and whose header was captured. */
  predicate HasHeader(v: View) {
    DetectOrder(v).Some? && BytesExist(v, 0, HeaderLen)
  }

  function HeaderOf(v: View): Header
    requires HasHeader(v)
  {
    DecodeHeader(v, DetectOrder(v).value)
  }

  // ---- Matching state -------------------------------------------------

  /** A call exchange: the hash of its key, the frame of the request and
      the frame of the response, 0 until one is seen. */
  datatype Trans = Trans(keyHash: nat, requestIn: nat, responseIn: nat)

  /** A control exchange: the control opcode of the request and the frames
      of request and response. */
  datatype Control = Control(opcode: nat, requestIn: nat, responseIn: nat)

  /** Calls are keyed by request id and the calling node. */
  datatype TransKey = TransKey(reqid: nat, node: nat)

  /** Controls are keyed by request id, source and destination of the
      request. */
  datatype ControlKey = ControlKey(reqid: nat, src: nat, dst: nat)

  datatype State = State(trans: map<TransKey, Trans>, controls: map<ControlKey, Control>)

  /** The frame being dissected: its number and whether it was dissected
      before. */
  datatype Frame = Frame(num: nat, visited: bool)

  /** A dissection result together with the tables after it; the tables
      also change when a bounds failure comes after the update. */
  datatype Outcome<T> = Outcome(result: Result<T, Error>, state: State)

  function Lookup<K, V>(m: map<K, V>, k: K): (r: Option<V>)
    ensures r.Some? <==> k in m
    ensures r.Some? ==> r.value == m[k]
  {
    if k in m then Some(m[k]) else None
  }

  /** Every record of `before` is still there, and `after` has no record
      under a key other than those of `before` and `tk` / `ck`. */
  predicate Grows(before: State, after: State, tk: TransKey, ck: ControlKey) {
    && before.trans.Keys <= after.trans.Keys <= before.trans.Keys + {tk}
    && before.controls.Keys <= after.controls.Keys <= before.controls.Keys + {ck}
  }

  // ---- Bodies ---------------------------------------------------------

  /** What a body shows besides the header. */
  datatype Body =
    | NoBody
    | CallRequest(immediate: bool, keyHash: nat, matched: Option<Trans>)
    | CallReply(status: nat)
    | DmasterRequest(dmaster: nat, keyHash: nat, matched: Option<Trans>)
    | DmasterReply(keyHash: nat, matched: Option<Trans>)
    | ControlRequest(opcode: nat, control: Option<Control>, shown: Option<Handled>)
    | ControlReply(status: nat, record: Control, shown: Option<Handled>)
    | UnmatchedReply

  /** Whether a key of `keylen` bytes at `off` and the data field of
      `datalen` bytes after it can be dissected. */
  predicate KeyDataFits(v: View, off: nat, keylen: nat, datalen: nat) {
    && (keylen == 0 || BytesExist(v, off, keylen))
    && ItemFits(v, off + keylen, datalen)
  }

  /** dissect_ctdb_key and the data field after it: the hash of the key,
      which is read byte by byte, then the data field. */
  function KeyAndData(v: View, off: nat, keylen: nat, datalen: nat): (r: Result<nat, Error>)
    requires keylen < U32Limit && datalen < U32Limit
    ensures r.Success? <==> KeyDataFits(v, off, keylen, datalen)
    ensures r.Success? ==> off + keylen <= |v.data| && r.value == KeyHash(v.data[off..off + keylen])
  {
    var hash :- HashRead(v, off, keylen);
    var _ :- LengthItem(v, off + keylen, datalen);
    EmptyKeyHash();
    assert keylen == 0 ==> v.data[off..off + keylen] == [];
    Success(hash)
  }

  /** The fixed part of a REQ_CALL: flags, db id, call id, hop count, key
      length and data length, then key and data.  Yields whether the
      immediate-migration flag (bit 0) is set and the key hash. */
  function CallFields(v: View, order: ByteOrder): (r: Result<(bool, nat), Error>)
    ensures r.Success? <==>
      BytesExist(v, 32, 24) && KeyDataFits(v, 56, GetU32(v, 48, order), GetU32(v, 52, order))
    ensures r.Success? ==>
      && 56 + GetU32(v, 48, order) <= |v.data|
      && r.value.0 == (GetU32(v, 32, order) % 2 == 1)
      && r.value.1 == KeyHash(v.data[56..56 + GetU32(v, 48, order)])
  {
    var _ :- Field(v, 32, 4);
    var _ :- Field(v, 36, 4);
    var _ :- Field(v, 40, 4);
    var _ :- Field(v, 44, 4);
    var _ :- Field(v, 48, 4);
    var _ :- Field(v, 52, 4);
    var hash :- KeyAndData(v, 56, GetU32(v, 48, order), GetU32(v, 52, order));
    Success((GetU32(v, 32, order) % 2 == 1, hash))
  }

  /** dissect_ctdb_req_call: on the first pass the call is recorded under
      (reqid, caller) with no response yet; on later passes it is looked
      up.  Nothing is recorded when the body is cut short. */
  function ReqCallBody(v: View, order: ByteOrder, reqid: nat, caller: nat, frame: Frame, st: State)
    : (o: Outcome<Body>)
    ensures o.result.Success? <==> CallFields(v, order).Success?
    ensures o.result.Failure? || frame.visited ==> o.state == st
    ensures o.result.Success? && !frame.visited ==>
      var (immediate, hash) := CallFields(v, order).value;
      var t := Trans(hash, frame.num, 0);
      && o.result.value == CallRequest(immediate, hash, Some(t))
      && o.state == st.(trans := st.trans[TransKey(reqid, caller) := t])
    ensures o.result.Success? && frame.visited ==>
      o.result.value.CallRequest? && o.result.value.matched == Lookup(st.trans, TransKey(reqid, caller))
  {
    match CallFields(v, order)
    case Failure(e) => Outcome(Failure(e), st)
    case Success((immediate, hash)) =>
      var key := TransKey(reqid, caller);
      if !frame.visited then
        var t := Trans(hash, frame.num, 0);
        Outcome(Success(CallRequest(immediate, hash, Some(t))), st.(trans := st.trans[key := t]))
      else
        Outcome(Success(CallRequest(immediate, hash, Lookup(st.trans, key))), st)
  }

  /** dissect_ctdb_reply_call: status, data length and data. */
  function ReplyCallBody(v: View, order: ByteOrder): (r: Result<Body, Error>)
    ensures r.Success? <==> BytesExist(v, 32, 8) && ItemFits(v, 40, GetU32(v, 36, order))
    ensures r.Success? ==> r.value == CallReply(GetU32(v, 32, order))
  {
    var _ :- Field(v, 32, 4);
    var _ :- Field(v, 36, 4);
    var _ :- LengthItem(v, 40, GetU32(v, 36, order));
    Success(CallReply(GetU32(v, 32, order)))
  }

  /** The fixed part of a REPLY_DMASTER: db id, the 64-bit record sequence
      number at the next multiple of 8, key length, data length, key and
      data.  Yields the key hash. */
  function DmasterReplyFields(v: View, order: ByteOrder): (r: Result<nat, Error>)
    ensures r.Success? <==>
      BytesExist(v, 32, 24) && KeyDataFits(v, 56, GetU32(v, 48, order), GetU32(v, 52, order))
    ensures r.Success? ==>
      && 56 + GetU32(v, 48, order) <= |v.data|
      && r.value == KeyHash(v.data[56..56 + GetU32(v, 48, order)])
  {
    var _ :- Field(v, 32, 4);
    var off := Align8(36);
    assert off == 40 && off + 8 == 48 && off + 12 == 52 && off + 16 == 56 && off + 20 == 60;
    var _ :- Field(v, off, 8);
    var _ :- Field(v, off + 8, 4);
    var _ :- Field(v, off + 12, 4);
    KeyAndData(v, off + 16, GetU32(v, off + 8, order), GetU32(v, off + 12, order))
  }

  /** dissect_ctdb_reply_dmaster: the call recorded under (reqid, dst) gets
      this frame as its response, on every pass. */
  function DmasterReplyBody(v: View, order: ByteOrder, reqid: nat, dst: nat, frame: Frame, st: State)
    : (o: Outcome<Body>)
    ensures o.result.Success? <==> DmasterReplyFields(v, order).Success?
    ensures o.state.controls == st.controls
    ensures var k := TransKey(reqid, dst);
      o.state.trans == if o.result.Success? && k in st.trans
        then st.trans[k := st.trans[k].(responseIn := frame.num)]
        else st.trans
    ensures o.result.Success? ==>
      && o.result.value.DmasterReply?
      && o.result.value.keyHash == DmasterReplyFields(v, order).value
      && (o.result.value.matched.Some? <==> TransKey(reqid, dst) in st.trans)
  {
    match DmasterReplyFields(v, order)
    case Failure(e) => Outcome(Failure(e), st)
    case Success(hash) =>
      var key := TransKey(reqid, dst);
      match Lookup(st.trans, key)
      case None => Outcome(Success(DmasterReply(hash, None)), st)
      case Some(t) =>
        var t' := t.(responseIn := frame.num);
        Outcome(Success(DmasterReply(hash, Some(t'))), st.(trans := st.trans[key := t']))
  }

  /** dissect_ctdb_req_dmaster: db id, the aligned record sequence number,
      the new dmaster, key length, data length, key and data; the call
      recorded under (reqid, dmaster) is shown but not changed. */
  function ReqDmasterBody(v: View, order: ByteOrder, reqid: nat, st: State): (r: Result<Body, Error>)
    ensures r.Success? <==>
      BytesExist(v, 32, 28) && KeyDataFits(v, 60, GetU32(v, 52, order), GetU32(v, 56, order))
    ensures r.Success? ==>
      var dmaster := GetU32(v, 48, order);
      && 60 + GetU32(v, 52, order) <= |v.data|
      && r.value == DmasterRequest(dmaster, KeyHash(v.data[60..60 + GetU32(v, 52, order)]),
                                   Lookup(st.trans, TransKey(reqid, dmaster)))
  {
    var _ :- Field(v, 32, 4);
    var off := Align8(36);
    assert off == 40 && off + 8 == 48 && off + 12 == 52 && off + 16 == 56 && off + 20 == 60;
    var _ :- Field(v, off, 8);
    var _ :- Field(v, off + 8, 4);
    var dmaster := GetU32(v, off + 8, order);
    var _ :- Field(v, off + 12, 4);
    var _ :- Field(v, off + 16, 4);
    var hash :- KeyAndData(v, off + 20, GetU32(v, off + 12, order), GetU32(v, off + 16, order));
    Success(DmasterRequest(dmaster, hash, Lookup(st.trans, TransKey(reqid, dmaster))))
  }

  /** Where a control request's payload starts: after the header, the
      control opcode padded to 8 bytes, the 64-bit server id, the client
      id, the flags and the data length. */
  const ControlRequestData: nat := 60

  /** Where a control reply's payload starts: after the header, status,
      data length and error length. */
  const ControlReplyData: nat := 44

  /** The fixed part of a REQ_CONTROL and its data field, which is only
      added when it is not empty.  Yields the control opcode. */
  function ControlRequestFields(v: View, order: ByteOrder): (r: Result<nat, Error>)
    ensures r.Success? <==>
      && BytesExist(v, 32, 28)
      && (GetU32(v, 56, order) == 0 || ItemFits(v, ControlRequestData, GetU32(v, 56, order)))
    ensures r.Success? ==> r.value == GetU32(v, 32, order)
  {
    var _ :- Field(v, 32, 4);
    var opcode := GetU32(v, 32, order);
    var off := Align8(36);
    assert off == 40 && off + 8 == 48 && off + 12 == 52 && off + 16 == 56 && off + 20 == 60;
    var _ :- Field(v, off, 8);
    var _ :- Field(v, off + 8, 4);
    var _ :- Field(v, off + 12, 4);
    var _ :- Field(v, off + 16, 4);
    var datalen := GetU32(v, off + 16, order);
    var _ :- if datalen != 0 then LengthItem(v, off + 20, datalen) else Success(0);
    Success(opcode)
  }

  /** Runs the handler the table gives for a control, if any. */
  function RunControl(opcode: nat, isRequest: bool, v: View, off: nat, status: nat, order: ByteOrder)
    : (r: Result<Option<Handled>, Error>)
    ensures isRequest ==>
      (r.Failure? <==> opcode == ControlProcessExists && !BytesExist(v, off, 4))
    ensures !isRequest ==>
      (r.Failure? <==> opcode == ControlGetNodemap && NodemapReplyInfo(v, off, order).Failure?)
    ensures r.Success? ==> (r.value.Some? <==> FindControl(opcode, isRequest).Some?)
    ensures FindControl(opcode, isRequest).Some? ==>
      var run := Run(FindControl(opcode, isRequest).value, v, off, status, order);
      && (r.Success? <==> run.Success?)
      && (r.Success? ==> r.value == Some(run.value))
  {
    ControlTableLookup(opcode);
    match FindControl(opcode, isRequest)
    case None => Success(None)
    case Some(h) =>
      var shown :- Run(h, v, off, status, order);
      Success(Some(shown))
  }

  /** dissect_ctdb_req_control: on the first pass the control is recorded
      under (reqid, src, dst) with no response yet, before its payload is
      handed to the request handler, so the record stays even when that
      handler runs out of data; on later passes it is looked up. */
  function ReqControlBody(v: View, order: ByteOrder, reqid: nat, src: nat, dst: nat, frame: Frame, st: State)
    : (o: Outcome<Body>)
    ensures ControlRequestFields(v, order).Failure? ==> o == Outcome(Failure(OutOfBounds), st)
    ensures frame.visited ==> o.state == st
    ensures ControlRequestFields(v, order).Success? && !frame.visited ==>
      var opcode := GetU32(v, 32, order);
      && o.state == st.(controls := st.controls[ControlKey(reqid, src, dst) := Control(opcode, frame.num, 0)])
      && (o.result.Failure? <==> opcode == ControlProcessExists && !BytesExist(v, ControlRequestData, 4))
    ensures o.result.Success? ==>
      && o.result.value.ControlRequest?
      && o.result.value.opcode == GetU32(v, 32, order)
    ensures ControlRequestFields(v, order).Success? && !frame.visited ==>
      var opcode := GetU32(v, 32, order);
      var run := RunControl(opcode, true, v, ControlRequestData, 0, order);
      run.Success? ==> o.result == Success(ControlRequest(opcode, Some(Control(opcode, frame.num, 0)), run.value))
    ensures ControlRequestFields(v, order).Success? && frame.visited ==>
      var opcode := GetU32(v, 32, order);
      var m := Lookup(st.controls, ControlKey(reqid, src, dst));
      && (m.None? ==> o.result == Success(ControlRequest(opcode, None, None)))
      && (m.Some? ==>
            var run := RunControl(m.value.opcode, true, v, ControlRequestData, 0, order);
            && (o.result.Success? <==> run.Success?)
            && (run.Success? ==> o.result.value == ControlRequest(opcode, m, run.value)))
  {
    match ControlRequestFields(v, order)
    case Failure(e) => Outcome(Failure(e), st)
    case Success(opcode) =>
      var key := ControlKey(reqid, src, dst);
      var record := Control(opcode, frame.num, 0);
      var matched := if frame.visited then Lookup(st.controls, key) else Some(record);
      var st' := if frame.visited then st else st.(controls := st.controls[key := record]);
      match matched
      case None => Outcome(Success(ControlRequest(opcode, None, None)), st')
      case Some(c) =>
        match RunControl(c.opcode, true, v, ControlRequestData, 0, order)
        case Failure(e) => Outcome(Failure(e), st')
        case Success(shown) => Outcome(Success(ControlRequest(opcode, matched, shown)), st')
  }

  /** Where the error string of a control reply starts: after the data,
      whose `guint32` length is added to the `int` offset in 32-bit
      unsigned arithmetic. */
  function ErrorOffset(datalen: nat): nat {
    if datalen == 0 then ControlReplyData
    else if datalen == 0xFFFF_FFFF then ControlReplyData - 1
    else ControlReplyData + datalen
  }

  /** The fixed part of a REPLY_CONTROL and its data and error fields, each
      only added when not empty.  Yields the status. */
  function ControlReplyFields(v: View, order: ByteOrder): (r: Result<nat, Error>)
    ensures r.Success? <==>
      && BytesExist(v, 32, 12)
      && (GetU32(v, 36, order) == 0 || ItemFits(v, ControlReplyData, GetU32(v, 36, order)))
      && (GetU32(v, 40, order) == 0 || ItemFits(v, ErrorOffset(GetU32(v, 36, order)), GetU32(v, 40, order)))
    ensures r.Success? ==> r.value == GetU32(v, 32, order)
  {
    var _ :- Field(v, 32, 4);
    var _ :- Field(v, 36, 4);
    var _ :- Field(v, 40, 4);
    var status := GetU32(v, 32, order);
    var datalen := GetU32(v, 36, order);
    var errorlen := GetU32(v, 40, order);
    var dataEnd :- if datalen != 0 then LengthItem(v, ControlReplyData, datalen) else Success(ControlReplyData);
    assert dataEnd == ErrorOffset(datalen);
    var _ :- if errorlen != 0 then LengthItem(v, ErrorOffset(datalen), errorlen) else Success(0);
    Success(status)
  }

  /** dissect_ctdb_reply_control: a reply is matched against the request
      sent from its destination to its source; without one nothing is read.
      On the first pass the record gets this frame as its response before
      the fields are read, so that stays even when they are cut short. */
  function ReplyControlBody(v: View, order: ByteOrder, reqid: nat, src: nat, dst: nat, frame: Frame, st: State)
    : (o: Outcome<Body>)
    ensures var k := ControlKey(reqid, dst, src);
      k !in st.controls ==> o == Outcome(Success(UnmatchedReply), st)
    ensures o.state.trans == st.trans
    ensures var k := ControlKey(reqid, dst, src);
      o.state.controls == if k in st.controls && !frame.visited
        then st.controls[k := st.controls[k].(responseIn := frame.num)]
        else st.controls
    ensures var k := ControlKey(reqid, dst, src);
      k in st.controls ==>
        (o.result.Failure? <==>
          || ControlReplyFields(v, order).Failure?
          || (st.controls[k].opcode == ControlGetNodemap
              && NodemapReplyInfo(v, ControlReplyData, order).Failure?))
    ensures var k := ControlKey(reqid, dst, src);
      k in st.controls && o.result.Success? ==>
        var status := GetU32(v, 32, order);
        && o.result.value.ControlReply?
        && o.result.value.status == status
        && o.result.value.record == o.state.controls[k]
        && RunControl(st.controls[k].opcode, false, v, ControlReplyData, status, order)
             == Success(o.result.value.shown)
  {
    var key := ControlKey(reqid, dst, src);
    match Lookup(st.controls, key)
    case None => Outcome(Success(UnmatchedReply), st)
    case Some(c0) =>
      var c := if frame.visited then c0 else c0.(responseIn := frame.num);
      var st' := if frame.visited then st else st.(controls := st.controls[key := c]);
      match ControlReplyFields(v, order)
      case Failure(e) => Outcome(Failure(e), st')
      case Success(status) =>
        match RunControl(c.opcode, false, v, ControlReplyData, status, order)
        case Failure(e) => Outcome(Failure(e), st')
        case Success(shown) => Outcome(Success(ControlReply(status, c, shown)), st')
  }

  /** No record outside the given keys is added, removed or changed. */
  predicate Keeps(before: State, after: State, tks: set<TransKey>, cks: set<ControlKey>) {
    && (forall k :: k in before.trans && k !in tks ==> k in after.trans && after.trans[k] == before.trans[k])
    && (forall k :: k in before.controls && k !in cks ==> k in after.controls && after.controls[k] == before.controls[k])
    && (forall k :: k in after.trans && k !in tks ==> k in before.trans)
    && (forall k :: k in after.controls && k !in cks ==> k in before.controls)
  }

  /** The keys a packet with header `h` may touch: its own endpoints in
      either direction. */
  function TransKeysOf(h: Header): set<TransKey> {
    {TransKey(h.reqid, h.src), TransKey(h.reqid, h.dst)}
  }

  function ControlKeysOf(h: Header): set<ControlKey> {
    {ControlKey(h.reqid, h.src, h.dst), ControlKey(h.reqid, h.dst, h.src)}
  }

  /** The switch on the header opcode of dissect_ctdb. */
  function BodyOf(v: View, order: ByteOrder, h: Header, frame: Frame, st: State): (o: Outcome<Body>)
    ensures Grows(st, o.state, TransKey(h.reqid, h.src), ControlKey(h.reqid, h.src, h.dst))
    ensures Keeps(st, o.state, TransKeysOf(h), ControlKeysOf(h))
    ensures frame.visited ==> o.state.controls == st.controls && o.state.trans.Keys == st.trans.Keys
    ensures h.opcode !in MatchingOpcodes ==> o.state == st
    ensures h.opcode !in BodyOpcodes ==> o == Outcome(Success(NoBody), st)
  {
    if h.opcode == ReqCall then ReqCallBody(v, order, h.reqid, h.src, frame, st)
    else if h.opcode == ReplyCall then Outcome(ReplyCallBody(v, order), st)
    else if h.opcode == ReplyDmaster then DmasterReplyBody(v, order, h.reqid, h.dst, frame, st)
    else if h.opcode == ReqDmaster then Outcome(ReqDmasterBody(v, order, h.reqid, st), st)
    else if h.opcode == ReqControl then ReqControlBody(v, order, h.reqid, h.src, h.dst, frame, st)
    else if h.opcode == ReplyControl then ReplyControlBody(v, order, h.reqid, h.src, h.dst, frame, st)
    else Outcome(Success(NoBody), st)
  }

  datatype Dissection = NotMine | Dissected(order: ByteOrder, header: Header, body: Body)

  /** dissect_ctdb: the magic decides the byte order or rejects the
      packet; then the eight header words, which must all have been
      captured, then the body.  Every opcode is accepted, known or not. */
  function Dissect(v: View, frame: Frame, st: State): (o: Outcome<Dissection>)
    ensures (o.result == Success(NotMine)) <==> DetectOrder(v).None?
    ensures !HasHeader(v) ==> o.state == st
    ensures DetectOrder(v).Some? && !BytesExist(v, 0, HeaderLen) ==> o.result.Failure?
    ensures o.result.Success? && o.result.value.Dissected? ==>
      && HasHeader(v)
      && o.result.value.order == DetectOrder(v).value
      && o.result.value.header == HeaderOf(v)
      && o.result.value.header.magic == Magic
    ensures HasHeader(v) && HeaderOf(v).opcode !in BodyOpcodes ==>
      o == Outcome(Success(Dissected(DetectOrder(v).value, HeaderOf(v), NoBody)), st)
    ensures HasHeader(v) && HeaderOf(v).opcode !in MatchingOpcodes ==> o.state == st
    ensures frame.visited ==> o.state.controls == st.controls && o.state.trans.Keys == st.trans.Keys
  {
    match DetectOrder(v)
    case None => Outcome(Success(NotMine), st)
    case Some(order) =>
      if !BytesExist(v, 0, HeaderLen) then Outcome(Failure(OutOfBounds), st)
      else
        var h := DecodeHeader(v, order);
        DetectOrderIsMagic(v, order);
        U32ReadsEncoding(v, 4, Magic, order);
        var body := BodyOf(v, order, h, frame, st);
        match body.result
        case Failure(e) => Outcome(Failure(e), body.state)
        case Success(b) => Outcome(Success(Dissected(order, h, b)), body.state)
  }

  /** A packet whose header was captured is dissected as its body is: the
      same state afterwards, the same failure, or the body's result under
      the decoded header. */
  lemma DissectState(v: View, frame: Frame, st: State)
    requires HasHeader(v)
    ensures var o := Dissect(v, frame, st);
      var b := BodyOf(v, DetectOrder(v).value, HeaderOf(v), frame, st);
      && o.state == b.state
      && (o.result.Success? <==> b.result.Success?)
      && (b.result.Success? ==> o.result.value == Dissected(DetectOrder(v).value, HeaderOf(v), b.result.value))
  {
  }

  /** A packet only ever adds the records of its own request, keyed by its
      request id and source (and destination, for controls), and only ever
      changes records keyed by its own endpoints; no record is removed. */
  lemma DissectTouchesOwnKeys(v: View, frame: Frame, st: State)
    ensures var o := Dissect(v, frame, st);
      if HasHeader(v) then
        var h := HeaderOf(v);
        && Grows(st, o.state, TransKey(h.reqid, h.src), ControlKey(h.reqid, h.src, h.dst))
        && Keeps(st, o.state, TransKeysOf(h), ControlKeysOf(h))
      else o.state == st
  {
    if HasHeader(v) {
      DissectState(v, frame, st);
    }
  }

  /** dissect_ctdb_heur: the dissector's verdict as a boolean. */
  function Heuristic(v: View, frame: Frame, st: State): (o: Outcome<bool>)
    ensures o.result.Success? ==> (o.result.value <==> DetectOrder(v).Some?)
    ensures o.result.Failure? <==> Dissect(v, frame, st).result.Failure?
    ensures o.state == Dissect(v, frame, st).state
  {
    var d := Dissect(v, frame, st);
    match d.result
    case Failure(e) => Outcome(Failure(e), d.state)
    case Success(r) => Outcome(Success(r.Dissected?), d.state)
  }

  /** A word of an image of words reads back as written. */
  lemma WordReadsBack(v: View, ws: seq<nat>, order: ByteOrder, i: nat, off: nat)
    requires AllWords(ws) && i < |ws| && off == 4 * i
    requires 4 * |ws| <= |v.data| && v.data[..4 * |ws|] == EncodeWords(ws, order)
    ensures off + 4 <= |v.data| && v.data[off..off + 4] == EncodeU32(ws[i], order)
    ensures GetU32(v, off, order) == ws[i]
  {
    var image := v.data[..4 * |ws|];
    EncodeWordsAt(ws, order, i);
    assert image[off..off + 4] == EncodeU32(ws[i], order);
    SliceOfPrefix(v.data, 4 * |ws|, off, off + 4);
    U32ReadsEncoding(v, off, ws[i], order);
  }

  /** A slice of a prefix is the same slice of the whole. */
  lemma SliceOfPrefix(s: seq<byte>, n: nat, lo: nat, hi: nat)
    requires lo <= hi <= n <= |s|
    ensures s[..n][lo..hi] == s[lo..hi]
  {
  }

  /** The words of a header image read back as the words written. */
  lemma DecodeEncodeHeader(v: View, h: Header, order: ByteOrder)
    requires FitsWidths(h)
    requires HeaderLen <= |v.data| && v.data[..HeaderLen] == EncodeHeader(h, order)
    ensures DecodeHeader(v, order) == h
    ensures v.data[4..8] == EncodeU32(h.magic, order)
  {
    LowWordsReadBack(v, h, order);
    HighWordsReadBack(v, h, order);
  }

  lemma LowWordsReadBack(v: View, h: Header, order: ByteOrder)
    requires FitsWidths(h)
    requires HeaderLen <= |v.data| && v.data[..HeaderLen] == EncodeHeader(h, order)
    ensures v.data[4..8] == EncodeU32(h.magic, order)
    ensures GetU32(v, 0, order) == h.length && GetU32(v, 4, order) == h.magic
    ensures GetU32(v, 8, order) == h.version && GetU32(v, 12, order) == h.generation
  {
    var ws := Words(h);
    WordReadsBack(v, ws, order, 0, 0);
    WordReadsBack(v, ws, order, 1, 4);
    WordReadsBack(v, ws, order, 2, 8);
    WordReadsBack(v, ws, order, 3, 12);
  }

  lemma HighWordsReadBack(v: View, h: Header, order: ByteOrder)
    requires FitsWidths(h)
    requires HeaderLen <= |v.data| && v.data[..HeaderLen] == EncodeHeader(h, order)
    ensures GetU32(v, 16, order) == h.opcode && GetU32(v, 20, order) == h.dst
    ensures GetU32(v, 24, order) == h.src && GetU32(v, 28, order) == h.reqid
  {
    var ws := Words(h);
    WordReadsBack(v, ws, order, 4, 16);
    WordReadsBack(v, ws, order, 5, 20);
    WordReadsBack(v, ws, order, 6, 24);
    WordReadsBack(v, ws, order, 7, 28);
  }

  /** Round trip: a header written in either byte order with the magic and
      an opcode without body is read back unchanged, whatever follows it,
      and the tables are left alone. */
  lemma DissectEncodeHeader(h: Header, order: ByteOrder, rest: seq<byte>, frame: Frame, st: State)
    requires FitsWidths(h) && h.magic == Magic && h.opcode !in BodyOpcodes
    requires HeaderLen + |rest| <= MaxLength
    ensures var v := RawView(EncodeHeader(h, order) + rest, HeaderLen + |rest|);
      Dissect(v, frame, st) == Outcome(Success(Dissected(order, h, NoBody)), st)
  {
    var e := EncodeHeader(h, order);
    var v: View := RawView(e + rest, HeaderLen + |rest|);
    assert v.data[..HeaderLen] == e;
    DecodeEncodeHeader(v, h, order);
    DetectOrderIsMagic(v, order);
    assert DetectOrder(v) == Some(order);
    assert HasHeader(v) && HeaderOf(v) == h;
  }

  /** On the first pass a control request whose fields were captured is
      recorded under (reqid, src, dst) with its control opcode, its frame
      and no response, whatever its payload handler does. */
  lemma ControlRequestRecorded(v: View, f: Frame, st: State)
    requires !f.visited && HasHeader(v) && HeaderOf(v).opcode == ReqControl
    requires ControlRequestFields(v, DetectOrder(v).value).Success?
    ensures var h := HeaderOf(v);
      var st1 := Dissect(v, f, st).state;
      var k := ControlKey(h.reqid, h.src, h.dst);
      k in st1.controls && st1.controls[k] == Control(GetU32(v, 32, DetectOrder(v).value), f.num, 0)
  {
    var h := HeaderOf(v);
    DissectState(v, f, st);
    assert Dissect(v, f, st).state
      == ReqControlBody(v, DetectOrder(v).value, h.reqid, h.src, h.dst, f, st).state;
  }

  /** On the first pass a control reply finds the request recorded under
      (reqid, dst, src), the endpoints swapped, and stores its own frame as
      the response; the rest of the record is kept. */
  lemma ControlReplyCompletes(v: View, f: Frame, st: State, k: ControlKey)
    requires !f.visited && HasHeader(v) && HeaderOf(v).opcode == ReplyControl
    requires k == ControlKey(HeaderOf(v).reqid, HeaderOf(v).dst, HeaderOf(v).src) && k in st.controls
    ensures var st1 := Dissect(v, f, st).state;
      k in st1.controls && st1.controls[k] == st.controls[k].(responseIn := f.num)
  {
    DissectReplyControl(v, f, st);
  }

  /** A REPLY_CONTROL packet is dissected as its reply body is. */
  lemma DissectReplyControl(v: View, f: Frame, st: State)
    requires HasHeader(v) && HeaderOf(v).opcode == ReplyControl
    ensures var h := HeaderOf(v);
      var b := ReplyControlBody(v, DetectOrder(v).value, h.reqid, h.src, h.dst, f, st);
      var o := Dissect(v, f, st);
      && o.state == b.state
      && (o.result.Success? <==> b.result.Success?)
      && (b.result.Success? ==> o.result.value == Dissected(DetectOrder(v).value, h, b.result.value))
  {
    var h := HeaderOf(v);
    var order := DetectOrder(v).value;
    assert BodyOf(v, order, h, f, st) == ReplyControlBody(v, order, h.reqid, h.src, h.dst, f, st);
    DissectState(v, f, st);
  }

  /** A control request dissected on the first pass, then on the first
      pass its reply, which travels the other way with the same request
      id, leave the exchange recorded with the control opcode and both
      frame numbers.  This holds even when the reply is cut short after its
      header, and whatever happened to the request's own payload. */
  lemma ControlRequestThenReply(v1: View, f1: Frame, v2: View, f2: Frame, st: State)
    requires !f1.visited && !f2.visited
    requires HasHeader(v1) && HasHeader(v2)
    requires HeaderOf(v1).opcode == ReqControl && HeaderOf(v2).opcode == ReplyControl
    requires HeaderOf(v2).reqid == HeaderOf(v1).reqid
    requires HeaderOf(v2).src == HeaderOf(v1).dst && HeaderOf(v2).dst == HeaderOf(v1).src
    requires ControlRequestFields(v1, DetectOrder(v1).value).Success?
    ensures var h1 := HeaderOf(v1);
      var st2 := Dissect(v2, f2, Dissect(v1, f1, st).state).state;
      var k := ControlKey(h1.reqid, h1.src, h1.dst);
      k in st2.controls
      && st2.controls[k] == Control(GetU32(v1, 32, DetectOrder(v1).value), f1.num, f2.num)
  {
    var h1 := HeaderOf(v1);
    var k := ControlKey(h1.reqid, h1.src, h1.dst);
    ControlRequestRecorded(v1, f1, st);
    var st1 := Dissect(v1, f1, st).state;
    ControlReplyCompletes(v2, f2, st1, k);
  }

  /** A call recorded on the first pass is completed by the REPLY_DMASTER
      addressed back to the caller with the same request id: the record
      keeps the key hash and request frame and gets the reply's frame as
      its response, on the first pass or any later one. */
  lemma CallRequestThenDmasterReply(v1: View, f1: Frame, v2: View, f2: Frame, st: State)
    requires !f1.visited
    requires HasHeader(v1) && HasHeader(v2)
    requires HeaderOf(v1).opcode == ReqCall && HeaderOf(v2).opcode == ReplyDmaster
    requires HeaderOf(v2).reqid == HeaderOf(v1).reqid && HeaderOf(v2).dst == HeaderOf(v1).src
    requires CallFields(v1, DetectOrder(v1).value).Success?
    requires DmasterReplyFields(v2, DetectOrder(v2).value).Success?
    ensures var h1 := HeaderOf(v1);
      var st2 := Dissect(v2, f2, Dissect(v1, f1, st).state).state;
      var k := TransKey(h1.reqid, h1.src);
      k in st2.trans
      && st2.trans[k] == Trans(CallFields(v1, DetectOrder(v1).value).value.1, f1.num, f2.num)
  {
    var h1 := HeaderOf(v1);
    var k := TransKey(h1.reqid, h1.src);
    var st1 := Dissect(v1, f1, st).state;
    DissectState(v1, f1, st);
    assert k in st1.trans;
    var h2 := HeaderOf(v2);
    assert TransKey(h2.reqid, h2.dst) == k;
    DissectState(v2, f2, st1);
  }

  /** A control reply without a recorded request is accepted, reads nothing
      after the header and changes nothing. */
  lemma UnmatchedControlReply(v: View, frame: Frame, st: State)
    requires HasHeader(v) && HeaderOf(v).opcode == ReplyControl
    requires ControlKey(HeaderOf(v).reqid, HeaderOf(v).dst, HeaderOf(v).src) !in st.controls
    ensures Dissect(v, frame, st)
      == Outcome(Success(Dissected(DetectOrder(v).value, HeaderOf(v), UnmatchedReply)), st)
  {
    DissectReplyControl(v, frame, st);
  }

  /** A second pass over a call request, straight after its first, leaves
      the tables alone and succeeds exactly when the first did; it then
      finds exactly the record the first pass made. */
  lemma CallRequestRevisited(v: View, n: nat, st: State)
    requires HasHeader(v) && HeaderOf(v).opcode == ReqCall
    ensures var fields := CallFields(v, DetectOrder(v).value);
      var st1 := Dissect(v, Frame(n, false), st).state;
      var again := Dissect(v, Frame(n, true), st1);
      && again.state == st1
      && (again.result.Success? <==> fields.Success?)
      && (fields.Success? ==>
            && again.result.value.Dissected?
            && again.result.value.body.matched == Some(Trans(fields.value.1, n, 0)))
  {
    var h := HeaderOf(v);
    var order := DetectOrder(v).value;
    var st1 := Dissect(v, Frame(n, false), st).state;
    DissectState(v, Frame(n, false), st);
    DissectState(v, Frame(n, true), st1);
    assert st1 == ReqCallBody(v, order, h.reqid, h.src, Frame(n, false), st).state;
  }
}

=== FILE: ctdb_controls.dfy ===
/** The CTDB control sub-dissectors: a table that maps a control opcode to
    the handler for its request payload and the handler for its reply
    payload, the lookup over that table, and the handlers themselves. */
module CtdbControls {
  import opened Wrappers
  import opened ByteView

  const ControlProcessExists: nat := 0
  const ControlGetRecmode: nat := 15
  const ControlGetRecmaster: nat := 31
  const ControlFreeze: nat := 33
  const ControlThaw: nat := 34
  const ControlGetNodemap: nat := 91

  /** The node map reply is not decoded beyond this many nodes. */
  const MaxNodes: nat := 500

  datatype Handler = RecmasterReply | RecmodeReply | NodemapReply | ExistRequest | ExistReply

  /** One row of the table; a missing handler is a NULL pointer. */
  datatype Entry = Entry(opcode: nat, request: Option<Handler>, reply: Option<Handler>)

  /** The table in declaration order, closed by its all-zero row. */
  const Table: seq<Entry> := [
    Entry(ControlGetRecmaster, None, Some(RecmasterReply)),
    Entry(ControlGetRecmode, None, Some(RecmodeReply)),
    Entry(ControlGetNodemap, None, Some(NodemapReply)),
    Entry(ControlFreeze, None, None),
    Entry(ControlThaw, None, None),
    Entry(ControlProcessExists, Some(ExistRequest), Some(ExistReply)),
    Entry(0, None, None)
  ]

  /** The row that ends the search: opcode 0 and both handlers NULL.  The
      PROCESS_EXISTS row has opcode 0 too but is not a terminator. */
  predicate IsSentinel(e: Entry) {
    e.opcode == 0 && e.request.None? && e.reply.None?
  }

  function Pick(e: Entry, isRequest: bool): Option<Handler> {
    if isRequest then e.request else e.reply
  }

  /** find_control_dissector from row `i` on: the handler of the first row
      whose opcode matches, or none once the terminator is reached. */
  function FindFrom(table: seq<Entry>, i: nat, opcode: nat, isRequest: bool): Option<Handler>
    decreases |table| - i
  {
    if i >= |table| || IsSentinel(table[i]) then None
    else if table[i].opcode == opcode then Pick(table[i], isRequest)
    else FindFrom(table, i + 1, opcode, isRequest)
  }

  function FindControl(opcode: nat, isRequest: bool): Option<Handler> {
    FindFrom(Table, 0, opcode, isRequest)
  }

  /** The index of the first terminator at or after `i`, or the end of the
      table. */
  function SentinelAt(table: seq<Entry>, i: nat): (s: nat)
    requires i <= |table|
    ensures i <= s <= |table|
    ensures s < |table| ==> IsSentinel(table[s])
    ensures forall k :: i <= k < s ==> !IsSentinel(table[k])
    decreases |table| - i
  {
    if i == |table| || IsSentinel(table[i]) then i else SentinelAt(table, i + 1)
  }

  /** The search returns the handler of the first matching row before the
      terminator. */
  lemma {:induction false} FindFirstMatch(table: seq<Entry>, i: nat, j: nat, opcode: nat, isRequest: bool)
    requires i <= |table| && i <= j < SentinelAt(table, i)
    requires table[j].opcode == opcode
    requires forall k :: i <= k < j ==> table[k].opcode != opcode
    ensures FindFrom(table, i, opcode, isRequest) == Pick(table[j], isRequest)
    decreases j - i
  {
    if i < j {
      assert SentinelAt(table, i) == SentinelAt(table, i + 1);
      FindFirstMatch(table, i + 1, j, opcode, isRequest);
    }
  }

  /** Without a matching row before the terminator the search finds
      nothing. */
  lemma {:induction false} FindNoMatch(table: seq<Entry>, i: nat, opcode: nat, isRequest: bool)
    requires i <= |table|
    requires forall k :: i <= k < SentinelAt(table, i) ==> table[k].opcode != opcode
    ensures FindFrom(table, i, opcode, isRequest) == None
    decreases |table| - i
  {
    if i < |table| && !IsSentinel(table[i]) {
      assert SentinelAt(table, i) == SentinelAt(table, i + 1);
      FindNoMatch(table, i + 1, opcode, isRequest);
    }
  }

  /** What the table yields for every opcode: only PROCESS_EXISTS has a
      request handler; GET_RECMASTER, GET_RECMODE, GET_NODEMAP and
      PROCESS_EXISTS have reply handlers; FREEZE and THAW have none. */
  lemma ControlTableLookup(opcode: nat)
    ensures FindControl(opcode, true) == if opcode == ControlProcessExists then Some(ExistRequest) else None
    ensures FindControl(opcode, false) ==
      if opcode == ControlGetRecmaster then Some(RecmasterReply)
      else if opcode == ControlGetRecmode then Some(RecmodeReply)
      else if opcode == ControlGetNodemap then Some(NodemapReply)
      else if opcode == ControlProcessExists then Some(ExistReply)
      else None
  {
    assert SentinelAt(Table, 6) == 6;
    assert SentinelAt(Table, 0) == 6;
    if opcode in {ControlGetRecmaster, ControlGetRecmode, ControlGetNodemap,
                  ControlFreeze, ControlThaw, ControlProcessExists} {
      var j0 := if opcode == ControlGetRecmaster then 0
        else if opcode == ControlGetRecmode then 1
        else if opcode == ControlGetNodemap then 2
        else if opcode == ControlFreeze then 3
        else if opcode == ControlThaw then 4
        else 5;
      FindFirstMatch(Table, 0, j0, opcode, true);
      FindFirstMatch(Table, 0, j0, opcode, false);
    } else {
      FindNoMatch(Table, 0, opcode, true);
      FindNoMatch(Table, 0, opcode, false);
    }
  }

  /** One entry of a node map reply. */
  datatype Node = Node(vnn: nat, flags: nat, ip: nat)

  /** What a control handler shows. */
  datatype Info =
    | RecMaster(recmaster: nat)
    | RecMode(recmode: nat)
    | NodeMap(nodes: seq<Node>)
    | TooManyNodes(count: nat)
    | Pid(pid: nat)
    | ProcessExists(status: nat)

  /** The node whose 24 bytes start at `o`: vnn, flags and a 16-byte socket
      address whose IPv4 address, always big-endian, sits at its byte 4. */
  function NodeAt(v: View, o: nat, order: ByteOrder): Node
    requires BytesExist(v, o, 16)
  {
    Node(GetU32(v, o, order), GetU32(v, o + 4, order), GetU32(v, o + 12, BigEndian))
  }

  /** The node loop of dissect_control_get_nodemap_reply: per node the
      vnn, the flags and the IPv4 address are added to the tree, each of
      which must have been captured. */
  function NodeWalk(v: View, off: nat, n: nat, order: ByteOrder): (r: Result<seq<Node>, Error>)
    ensures r.Success? <==> n == 0 || off + 24 * (n - 1) + 16 <= |v.data|
    ensures r.Success? ==> |r.value| == n
    decreases n
  {
    if n == 0 then Success([])
    else
      var _ :- NodeFields(v, off);
      var rest :- NodeWalk(v, off + 24, n - 1, order);
      Success([NodeAt(v, off, order)] + rest)
  }

  /** The three items of one node: vnn and flags, then the address four
      bytes into the socket address.  Together they need the first 16 of
      the node's 24 bytes. */
  function NodeFields(v: View, off: nat): (r: Result<nat, Error>)
    ensures r.Success? <==> BytesExist(v, off, 16)
  {
    var _ :- Field(v, off, 4);
    var _ :- Field(v, off + 4, 4);
    Field(v, off + 12, 4)
  }

  /** Whether all `n` nodes starting at `off` were captured, as far as the
      node loop reads them. */
  predicate NodesCaptured(v: View, off: nat, n: nat) {
    n == 0 || off + 24 * (n - 1) + 16 <= |v.data|
  }

  /** The reference reading of a node map: node `k` is the one 24 * k
      bytes past the first. */
  function NodesAt(v: View, off: nat, n: nat, order: ByteOrder): (nodes: seq<Node>)
    requires NodesCaptured(v, off, n)
    ensures |nodes| == n
  {
    seq(n, k requires 0 <= k < n => NodeAt(v, off + 24 * k, order))
  }

  /** The node loop reads exactly the reference node map, and fails
      exactly when it was not captured. */
  lemma {:induction false} NodeWalkIsNodesAt(v: View, off: nat, n: nat, order: ByteOrder)
    ensures NodeWalk(v, off, n, order)
      == if NodesCaptured(v, off, n) then Success(NodesAt(v, off, n, order)) else Failure(OutOfBounds)
    decreases n
  {
    var r := NodeWalk(v, off, n, order);
    if n == 0 {
      assert NodesAt(v, off, 0, order) == [];
    } else if NodesCaptured(v, off, n) {
      NodesAtCons(v, off, n, order);
      NodeWalkIsNodesAt(v, off + 24, n - 1, order);
    } else {
      assert r.Failure? && r.error == OutOfBounds;
    }
  }

  /** A captured node map is its first node followed by the rest. */
  lemma NodesAtCons(v: View, off: nat, n: nat, order: ByteOrder)
    requires 0 < n && NodesCaptured(v, off, n)
    ensures NodesCaptured(v, off + 24, n - 1)
    ensures NodesAt(v, off, n, order) == [NodeAt(v, off, order)] + NodesAt(v, off + 24, n - 1, order)
  {
    var all := NodesAt(v, off, n, order);
    var tail := NodesAt(v, off + 24, n - 1, order);
    forall k | 1 <= k < n
      ensures all[k] == tail[k - 1]
    {
      assert off + 24 * k == (off + 24) + 24 * (k - 1);
    }
  }

  /** What a handler shows and the offset it returns. */
  datatype Handled = Handled(info: Info, end: nat)

  /** dissect_control_get_nodemap_reply: the node count, then the nodes
      unless there are more than MaxNodes, in which case it stops right
      after the count. */
  function NodemapReplyInfo(v: View, off: nat, order: ByteOrder): (r: Result<Handled, Error>)
    ensures !BytesExist(v, off, 4) ==> r.Failure?
    ensures BytesExist(v, off, 4) && GetU32(v, off, order) > MaxNodes ==>
      r == Success(Handled(TooManyNodes(GetU32(v, off, order)), off + 4))
    ensures BytesExist(v, off, 4) && GetU32(v, off, order) <= MaxNodes ==>
      var n := GetU32(v, off, order);
      (r.Success? <==> n == 0 || off + 4 + 24 * (n - 1) + 16 <= |v.data|)
    ensures r.Success? && r.value.info.NodeMap? ==>
      && |r.value.info.nodes| == GetU32(v, off, order) <= MaxNodes
      && r.value.end == off + 4 + 24 * |r.value.info.nodes|
  {
    var _ :- Field(v, off, 4);
    var count := GetU32(v, off, order);
    if count > MaxNodes then Success(Handled(TooManyNodes(count), off + 4))
    else
      var nodes :- NodeWalk(v, off + 4, count, order);
      Success(Handled(NodeMap(nodes), off + 4 + 24 * count))
  }

  /** A decoded node map holds exactly the reference reading of its
      nodes, and every count up to MaxNodes whose nodes were captured
      decodes. */
  lemma NodemapReplyReadsNodes(v: View, off: nat, order: ByteOrder)
    requires BytesExist(v, off, 4) && GetU32(v, off, order) <= MaxNodes
    ensures var n := GetU32(v, off, order);
      NodemapReplyInfo(v, off, order)
        == if NodesCaptured(v, off + 4, n)
           then Success(Handled(NodeMap(NodesAt(v, off + 4, n, order)), off + 4 + 24 * n))
           else Failure(OutOfBounds)
  {
    NodeWalkIsNodesAt(v, off + 4, GetU32(v, off, order), order);
  }

  /** Runs a handler on the payload at `off`; reply handlers also receive
      the reply's status word.  The status-only handlers read nothing from
      the buffer, cannot fail and return `off` unchanged. */
  function Run(h: Handler, v: View, off: nat, status: nat, order: ByteOrder): (r: Result<Handled, Error>)
    ensures h == RecmasterReply ==> r == Success(Handled(RecMaster(status), off))
    ensures h == RecmodeReply ==> r == Success(Handled(RecMode(status), off))
    ensures h == ExistReply ==> r == Success(Handled(ProcessExists(status), off))
    ensures h == ExistRequest ==> (r.Success? <==> BytesExist(v, off, 4))
    ensures h == ExistRequest && r.Success? ==> r.value == Handled(Pid(GetU32(v, off, order)), off + 4)
    ensures h == NodemapReply ==> r == NodemapReplyInfo(v, off, order)
  {
    match h
    case RecmasterReply => Success(Handled(RecMaster(status), off))
    case RecmodeReply => Success(Handled(RecMode(status), off))
    case ExistReply => Success(Handled(ProcessExists(status), off))
    case ExistRequest =>
      var _ :- Field(v, off, 4);
      Success(Handled(Pid(GetU32(v, off, order)), off + 4))
    case NodemapReply => NodemapReplyInfo(v, off, order)
  }
}

=== FILE: ctdb_hash.dfy ===
/** Arithmetic helpers of the CTDB dissector: the record-key hash it shows
    next to every key, and the 8-byte alignment fix-up applied before the
    64-bit fields.  All arithmetic is that of C `guint32`, written out
    modulo 2^32. */
module CtdbHash {
  import opened Wrappers
  import opened ByteView

  const HashSeed: nat := 0x238F13AF
  const HashMul: nat := 1103515243
  const HashInc: nat := 12345

  function Pow2(n: nat): (p: nat)
    ensures p >= 1
  {
    if n == 0 then 1 else 2 * Pow2(n - 1)
  }

  lemma {:induction false} Pow2Monotone(m: nat, n: nat)
    requires m <= n
    ensures Pow2(m) <= Pow2(n)
    decreases n
  {
    if m < n {
      Pow2Monotone(m, n - 1);
    }
  }

  /** The shift applied to byte `i`: `i * 5` in 32-bit unsigned arithmetic,
      then reduced modulo 24. */
  function Shift(i: nat): (s: nat)
    ensures s < 24
  {
    ((i * 5) % U32Limit) % 24
  }

  /** Byte `b` shifted into place; the shift happens on a C `int`. */
  function Term(b: byte, i: nat): nat {
    b * Pow2(Shift(i))
  }

  /** The shift never overflows the `int` it is computed in: a byte moved
      left by at most 23 bits stays below 2^31. */
  lemma TermFitsInt(b: byte, i: nat)
    ensures Term(b, i) < 0x8000_0000
  {
    BytePow2Bound(b, Shift(i));
    Pow2Monotone(Shift(i) + 8, 31);
    Pow2Of31();
  }

  /** A byte shifted left by `s` bits is below 2^(s + 8). */
  lemma {:induction false} BytePow2Bound(b: byte, s: nat)
    ensures b * Pow2(s) < Pow2(s + 8)
  {
    if s == 0 {
      Pow2Of31();
    } else {
      BytePow2Bound(b, s - 1);
      assert b * Pow2(s) == 2 * (b * Pow2(s - 1));
    }
  }

  lemma Pow2Of31()
    ensures Pow2(8) == 0x100 && Pow2(31) == 0x8000_0000
  {
    assert Pow2(1) == 2;
    assert Pow2(2) == 4;
    assert Pow2(3) == 8;
    assert Pow2(4) == 16;
    assert Pow2(5) == 32;
    assert Pow2(6) == 64;
    assert Pow2(7) == 128;
    assert Pow2(8) == 256;
    assert Pow2(9) == 512;
    assert Pow2(10) == 1024;
    assert Pow2(11) == 2048;
    assert Pow2(12) == 4096;
    assert Pow2(13) == 8192;
    assert Pow2(14) == 16384;
    assert Pow2(15) == 32768;
    assert Pow2(16) == 65536;
    assert Pow2(17) == 131072;
    assert Pow2(18) == 262144;
    assert Pow2(19) == 524288;
    assert Pow2(20) == 1048576;
    assert Pow2(21) == 2097152;
    assert Pow2(22) == 4194304;
    assert Pow2(23) == 8388608;
    assert Pow2(24) == 16777216;
    assert Pow2(25) == 33554432;
    assert Pow2(26) == 67108864;
    assert Pow2(27) == 134217728;
    assert Pow2(28) == 268435456;
    assert Pow2(29) == 536870912;
    assert Pow2(30) == 1073741824;
  }

  /** The running value of the hash loop of a `len`-byte key after the bytes
      of `prefix` have been added, each addition wrapping at 2^32. */
  function Accumulate(len: nat, prefix: seq<byte>): (acc: nat)
    ensures acc < U32Limit
    decreases |prefix|
  {
    if prefix == [] then (HashSeed * len) % U32Limit
    else (Accumulate(len, prefix[..|prefix| - 1]) + Term(prefix[|prefix| - 1], |prefix| - 1)) % U32Limit
  }

  /** ctdb_hash over the bytes of a key. */
  function KeyHash(key: seq<byte>): (h: nat)
    ensures h < U32Limit
  {
    (HashMul * Accumulate(|key|, key) + HashInc) % U32Limit
  }

  /** The shifted bytes summed without any wrap-around. */
  function SumTerms(prefix: seq<byte>): nat
    decreases |prefix|
  {
    if prefix == [] then 0
    else SumTerms(prefix[..|prefix| - 1]) + Term(prefix[|prefix| - 1], |prefix| - 1)
  }

  /** Euclidean division by 2^32 is determined by quotient and remainder. */
  lemma DivModUnique(x: int, q: int, r: int)
    requires x == q * U32Limit + r && 0 <= r < U32Limit
    ensures x % U32Limit == r && x / U32Limit == q
  {
  }

  lemma ModAddLeft(a: int, b: int)
    ensures (a % U32Limit + b) % U32Limit == (a + b) % U32Limit
  {
    var s := a % U32Limit + b;
    DivModUnique(a + b, s / U32Limit + a / U32Limit, s % U32Limit);
  }

  lemma ModMulRight(k: int, a: int)
    ensures (k * (a % U32Limit)) % U32Limit == (k * a) % U32Limit
  {
    var r := a % U32Limit;
    var q := a / U32Limit;
    assert k * a == k * r + (k * q) * U32Limit;
    var s := k * r;
    DivModUnique(k * a, s / U32Limit + k * q, s % U32Limit);
  }

  /** Wrapping after every step gives the same value as wrapping once at
      the end. */
  lemma {:induction false} AccumulateClosedForm(len: nat, prefix: seq<byte>)
    ensures Accumulate(len, prefix) == (HashSeed * len + SumTerms(prefix)) % U32Limit
    decreases |prefix|
  {
    if prefix != [] {
      var init := prefix[..|prefix| - 1];
      var t := Term(prefix[|prefix| - 1], |prefix| - 1);
      AccumulateClosedForm(len, init);
      ModAddLeft(HashSeed * len + SumTerms(init), t);
    }
  }

  /** The key hash as one formula over the unwrapped sum. */
  lemma KeyHashClosedForm(key: seq<byte>)
    ensures KeyHash(key) == (HashMul * (HashSeed * |key| + SumTerms(key)) + HashInc) % U32Limit
  {
    var s := HashSeed * |key| + SumTerms(key);
    AccumulateClosedForm(|key|, key);
    ModMulRight(HashMul, s);
    ModAddLeft(HashMul * (s % U32Limit), HashInc);
    ModAddLeft(HashMul * s, HashInc);
  }

  /** The empty key hashes to the increment alone. */
  lemma EmptyKeyHash()
    ensures KeyHash([]) == HashInc
  {
  }

  /** The hash of the `len` bytes at `off`, which must all have been
      captured; an empty key reads nothing. */
  function HashRead(v: View, off: nat, len: nat): (r: Result<nat, Error>)
    ensures r.Success? <==> len == 0 || BytesExist(v, off, len)
    ensures len == 0 ==> r == Success(HashInc)
    ensures len > 0 && r.Success? ==> r.value == KeyHash(v.data[off..off + len])
  {
    if len == 0 then Success(KeyHash([]))
    else if BytesExist(v, off, len) then Success(KeyHash(v.data[off..off + len]))
    else Failure(OutOfBounds)
  }

  /** The loop of ctdb_hash, reading the key byte by byte from the buffer;
      a byte past the captured data raises a bounds failure. */
  method ComputeKeyHash(v: View, off: nat, len: nat) returns (r: Result<nat, Error>)
    ensures r == HashRead(v, off, len)
  {
    var value := (HashSeed * len) % U32Limit;
    var i := 0;
    ghost var read: seq<byte> := [];
    while i < len
      invariant i <= len && |read| == i
      invariant i > 0 ==> off + i <= |v.data| && read == v.data[off..off + i]
      invariant value == Accumulate(len, read)
    {
      var b := U8(v, off + i);
      if b.Failure? {
        assert !BytesExist(v, off, len);
        return Failure(OutOfBounds);
      }
      var next := read + [b.value];
      assert next[..i] == read && next[i] == b.value;
      assert Accumulate(len, next) == (value + Term(b.value, i)) % U32Limit;
      assert next == v.data[off..off + i + 1];
      value := (value + Term(b.value, i)) % U32Limit;
      read := next;
      i := i + 1;
    }
    if len > 0 {
      assert read == v.data[off..off + len];
      assert KeyHash(read) == (HashMul * value + HashInc) % U32Limit;
    }
    return Success((HashMul * value + HashInc) % U32Limit);
  }

  /** The alignment fix-up AS WRITTEN: `(offset + 7) & 0xfffff8`, whose mask
      has only 24 bits. */
  function AlignAsWritten(off: nat): nat {
    ((off + 7) % 0x100_0000) / 8 * 8
  }

  /** On the 32-bit word the source computes in, the mask is the arithmetic
      of AlignAsWritten. */
  lemma MaskIsArithmetic(x: bv32)
    ensures x & 0xfffff8 == (x % 0x100_0000) / 8 * 8
  {
  }

  /** The evidently intended fix-up: round up to the next multiple of 8. */
  function Align8(off: nat): (r: nat)
    ensures r % 8 == 0 && off <= r < off + 8
  {
    (off + 7) / 8 * 8
  }

  /** Below 2^24 the written mask and the intended rounding agree. */
  lemma AlignAgreesBelow24Bits(off: nat)
    requires off + 7 < 0x100_0000
    ensures AlignAsWritten(off) == Align8(off)
  {
  }

  /** At 2^24 the written mask drops the high bits and moves the offset
      backwards to 0. */
  lemma AlignAsWrittenWrapsAt24Bits()
    ensures AlignAsWritten(0x100_0000) == 0 < 0x100_0000 == Align8(0x100_0000)
  {
  }

  /** Every call site aligns offset 36, the end of the header and one
      32-bit field, where both give 40. */
  lemma AlignAtCallSites()
    ensures AlignAsWritten(36) == Align8(36) == 40
  {
  }
}

=== FILE: e100.dfy ===
/** The E100 capture envelope: a fixed 28-byte big-endian header in front of
    an Ethernet frame (without frame check sequence).  The dissector doubles
    as its own heuristic: it claims a buffer only when the length, the header
    version and the declared capture length all agree. */
module E100 {
  import opened Wrappers
  import opened ByteView

  const HeaderVersion := Span(0, 1)
  const PortRecv := Span(1, 1)
  const SeqNum := Span(2, 2)
  const Ip := Span(4, 4)
  const MonPktId := Span(8, 4)
  const Timestamp := Span(12, 8)
  const BytesCap := Span(20, 4)
  const BytesOrig := Span(24, 4)
  const EncapLen: nat := 28

  /** The header fields in wire order. */
  const Layout: seq<Span> :=
    [HeaderVersion, PortRecv, SeqNum, Ip, MonPktId, Timestamp, BytesCap, BytesOrig]

  datatype Header = Header(
    version: nat, port: nat, seqNum: nat, ip: nat, monPktId: nat,
    tsSecs: nat, tsUsecs: nat, bytesCaptured: nat, bytesOriginal: nat)

  /** Field values that fit their wire widths. */
  predicate FitsWidths(h: Header) {
    && h.version < 0x100 && h.port < 0x100 && h.seqNum < U16Limit
    && h.ip < U32Limit && h.monPktId < U32Limit
    && h.tsSecs < U32Limit && h.tsUsecs < U32Limit
    && h.bytesCaptured < U32Limit && h.bytesOriginal < U32Limit
  }

  /** The outcome of dissect_e100 when it does not throw: 0 ("not mine"), or
      the header, the window handed to the Ethernet dissector and the number
      of bytes claimed. */
  datatype Dissection =
    | NotMine
    | Dissected(header: Header, payload: View, consumed: nat)

  /** The three heuristic tests, in the order the source makes them. */
  predicate LooksLikeE100(v: View) {
    && |v.data| >= EncapLen
    && v.data[HeaderVersion.offset] == 1
    && DecodeU32(v.data[BytesCap.offset..BytesCap.offset + 4], BigEndian) == v.reported - EncapLen
  }

  /** How tvb_new_subset_length_caplen reads the u32 `bytes_original` once it
      is passed as a signed `gint`: -1 means "the rest of the reported
      length", any other negative value raises a bounds exception. */
  function PayloadReported(v: View, orig: nat): (r: Result<nat, Error>)
    requires |v.data| >= EncapLen && orig < U32Limit
    ensures r.Success? ==> r.value <= MaxLength
    ensures r.Failure? <==> 0x8000_0000 <= orig < 0xFFFF_FFFF
  {
    if orig == 0xFFFF_FFFF then Success(v.reported - EncapLen)
    else if orig >= 0x8000_0000 then Failure(OutOfBounds)
    else Success(orig)
  }

  /** dissect_e100: the heuristic, the header decode and the payload window. */
  function Dissect(v: View): (r: Result<Dissection, Error>)
    ensures |v.data| < EncapLen ==> r == Success(NotMine)
    ensures |v.data| >= EncapLen && v.data[0] != 1 ==> r == Success(NotMine)
    ensures r == Success(NotMine) <==> !LooksLikeE100(v)
    ensures LooksLikeE100(v) && |v.data| < v.reported ==> r.Failure?
    ensures LooksLikeE100(v) ==>
      (r.Failure? <==>
        |v.data| < v.reported
        || PayloadReported(v, DecodeU32(v.data[BytesOrig.offset..BytesOrig.offset + 4], BigEndian)).Failure?)
    ensures r.Success? && r.value.Dissected? ==>
      && LooksLikeE100(v)
      && r.value.consumed == |v.data| == v.reported
      && r.value.header.bytesCaptured + EncapLen == v.reported
      && EncapLen + |r.value.payload.data| <= |v.data|
      && r.value.payload.data == v.data[EncapLen..EncapLen + |r.value.payload.data|]
      && |r.value.payload.data| ==
           (if r.value.header.bytesCaptured <= r.value.payload.reported then r.value.header.bytesCaptured
            else r.value.payload.reported)
      && r.value.header.bytesOriginal == DecodeU32(v.data[BytesOrig.offset..BytesOrig.offset + 4], BigEndian)
      && PayloadReported(v, r.value.header.bytesOriginal) == Success(r.value.payload.reported)
  {
    if |v.data| < EncapLen then Success(NotMine)
    else
      var cap := GetU32(v, BytesCap.offset, BigEndian);
      if GetU8(v, HeaderVersion.offset) != 1 || cap != v.reported - EncapLen then Success(NotMine)
      else
        var orig := GetU32(v, BytesOrig.offset, BigEndian);
        var header := Header(
          GetU8(v, HeaderVersion.offset), GetU8(v, PortRecv.offset),
          GetU16(v, SeqNum.offset, BigEndian), GetU32(v, Ip.offset, BigEndian),
          GetU32(v, MonPktId.offset, BigEndian),
          GetU32(v, Timestamp.offset, BigEndian), GetU32(v, Timestamp.offset + 4, BigEndian),
          cap, orig);
        var reported :- PayloadReported(v, orig);
        var payload :- SubsetLengthCaplen(v, EncapLen, cap, reported);
        Success(Dissected(header, payload, |v.data|))
  }

  /** dissect_e100_heur: true exactly when the dissector claims bytes. */
  function Heuristic(v: View): (r: Result<bool, Error>)
    ensures r.Success? ==> (r.value <==> LooksLikeE100(v))
    ensures r.Failure? <==> Dissect(v).Failure?
  {
    var d :- Dissect(v);
    Success(d.Dissected? && d.consumed > 0)
  }

  /** The wire image of a header. */
  function Encode(h: Header): (b: seq<byte>)
    requires FitsWidths(h)
    ensures |b| == EncapLen
  {
    [h.version, h.port] + EncodeU16(h.seqNum, BigEndian) + EncodeU32(h.ip, BigEndian)
    + EncodeU32(h.monPktId, BigEndian) + EncodeU32(h.tsSecs, BigEndian)
    + EncodeU32(h.tsUsecs, BigEndian) + EncodeU32(h.bytesCaptured, BigEndian)
    + EncodeU32(h.bytesOriginal, BigEndian)
  }

  /** The header fields tile bytes [0, 28) in wire order. */
  lemma {:induction false} LayoutTilesHeader()
    ensures Tiles(Layout, SpanOf, 0, EncapLen)
  {
    assert Tiles(Layout[8..], SpanOf, 28, EncapLen);
    assert Tiles(Layout[7..], SpanOf, 24, EncapLen);
    assert Tiles(Layout[6..], SpanOf, 20, EncapLen);
    assert Tiles(Layout[5..], SpanOf, 12, EncapLen);
    assert Tiles(Layout[4..], SpanOf, 8, EncapLen);
    assert Tiles(Layout[3..], SpanOf, 4, EncapLen);
    assert Tiles(Layout[2..], SpanOf, 2, EncapLen);
    assert Tiles(Layout[1..], SpanOf, 1, EncapLen);
  }

  /** Round trip: a well-formed, untruncated E100 frame is claimed and its
      header and payload come back unchanged; the payload window claims
      `bytesOriginal` bytes on the wire. */
  lemma {:induction false} DissectEncode(h: Header, payload: seq<byte>)
    requires FitsWidths(h) && h.version == 1
    requires h.bytesCaptured == |payload|
    requires EncapLen + |payload| <= MaxLength
    requires h.bytesOriginal <= MaxLength
    ensures var v := RawView(Encode(h) + payload, EncapLen + |payload|);
      var n := if h.bytesCaptured <= h.bytesOriginal then h.bytesCaptured else h.bytesOriginal;
      Dissect(v) == Success(Dissected(h, RawView(payload[..n], h.bytesOriginal), EncapLen + |payload|))
  {
    var v: View := RawView(Encode(h) + payload, EncapLen + |payload|);
    assert v.data[..EncapLen] == Encode(h);
    assert v.data[EncapLen..] == payload;
    DissectFrame(v, h, payload);
  }

  /** The round trip on a buffer already split into header image and
      payload. */
  lemma DissectFrame(v: View, h: Header, payload: seq<byte>)
    requires FitsWidths(h) && h.version == 1
    requires h.bytesCaptured == |payload| && h.bytesOriginal <= MaxLength
    requires |v.data| == v.reported == EncapLen + |payload|
    requires v.data[..EncapLen] == Encode(h) && v.data[EncapLen..] == payload
    ensures var n := if h.bytesCaptured <= h.bytesOriginal then h.bytesCaptured else h.bytesOriginal;
      Dissect(v) == Success(Dissected(h, RawView(payload[..n], h.bytesOriginal), EncapLen + |payload|))
  {
    HeaderReadsBack(v, h);
    var n := if h.bytesCaptured <= h.bytesOriginal then h.bytesCaptured else h.bytesOriginal;
    assert v.data[EncapLen..EncapLen + n] == payload[..n];
    assert SubsetLengthCaplen(v, EncapLen, h.bytesCaptured, h.bytesOriginal)
      == Success(RawView(payload[..n], h.bytesOriginal));
  }

  /** Where each multi-byte field sits in the wire image of a header. */
  lemma EncodeFieldsAt(h: Header)
    requires FitsWidths(h)
    ensures var e := Encode(h);
      && e[0] == h.version && e[1] == h.port
      && e[2..4] == EncodeU16(h.seqNum, BigEndian)
      && e[4..8] == EncodeU32(h.ip, BigEndian)
      && e[8..12] == EncodeU32(h.monPktId, BigEndian)
      && e[12..16] == EncodeU32(h.tsSecs, BigEndian)
      && e[16..20] == EncodeU32(h.tsUsecs, BigEndian)
      && e[20..24] == EncodeU32(h.bytesCaptured, BigEndian)
      && e[24..28] == EncodeU32(h.bytesOriginal, BigEndian)
  {
    var e := Encode(h);
    var a := [h.version, h.port];
    var b := EncodeU16(h.seqNum, BigEndian);
    var c := EncodeU32(h.ip, BigEndian);
    var d := EncodeU32(h.monPktId, BigEndian);
    var f := EncodeU32(h.tsSecs, BigEndian);
    var g := EncodeU32(h.tsUsecs, BigEndian);
    var i := EncodeU32(h.bytesCaptured, BigEndian);
    var j := EncodeU32(h.bytesOriginal, BigEndian);
    assert e == a + b + c + d + f + g + i + j;
    assert (a + b + c + d + f + g + i + j)[24..28] == j;
    assert (a + b + c + d + f + g + i)[20..24] == i;
    assert (a + b + c + d + f + g)[16..20] == g;
    assert (a + b + c + d + f)[12..16] == f;
    assert (a + b + c + d)[8..12] == d;
    assert (a + b + c)[4..8] == c;
    assert (a + b)[2..4] == b;
  }

  /** Every header field reads back from its wire image. */
  lemma HeaderReadsBack(v: View, h: Header)
    requires FitsWidths(h)
    requires |v.data| >= EncapLen && v.data[..EncapLen] == Encode(h)
    ensures GetU8(v, HeaderVersion.offset) == h.version && GetU8(v, PortRecv.offset) == h.port
    ensures GetU16(v, SeqNum.offset, BigEndian) == h.seqNum
    ensures GetU32(v, Ip.offset, BigEndian) == h.ip
    ensures GetU32(v, MonPktId.offset, BigEndian) == h.monPktId
    ensures GetU32(v, Timestamp.offset, BigEndian) == h.tsSecs
    ensures GetU32(v, Timestamp.offset + 4, BigEndian) == h.tsUsecs
    ensures GetU32(v, BytesCap.offset, BigEndian) == h.bytesCaptured
    ensures GetU32(v, BytesOrig.offset, BigEndian) == h.bytesOriginal
  {
    var e := Encode(h);
    var d := v.data;
    EncodeFieldsAt(h);
    assert d[0] == e[0] == h.version && d[1] == e[1] == h.port;
    assert d[2..4] == e[2..4] == EncodeU16(h.seqNum, BigEndian);
    assert d[4..8] == e[4..8] == EncodeU32(h.ip, BigEndian);
    assert d[8..12] == e[8..12] == EncodeU32(h.monPktId, BigEndian);
    assert d[12..16] == e[12..16] == EncodeU32(h.tsSecs, BigEndian);
    assert d[16..20] == e[16..20] == EncodeU32(h.tsUsecs, BigEndian);
    assert d[20..24] == e[20..24] == EncodeU32(h.bytesCaptured, BigEndian);
    assert d[24..28] == e[24..28] == EncodeU32(h.bytesOriginal, BigEndian);
    U16ReadsEncoding(v, 2, h.seqNum, BigEndian);
    U32ReadsEncoding(v, 4, h.ip, BigEndian);
    U32ReadsEncoding(v, 8, h.monPktId, BigEndian);
    U32ReadsEncoding(v, 12, h.tsSecs, BigEndian);
    U32ReadsEncoding(v, 16, h.tsUsecs, BigEndian);
    U32ReadsEncoding(v, 20, h.bytesCaptured, BigEndian);
    U32ReadsEncoding(v, 24, h.bytesOriginal, BigEndian);
  }

  /** A truncated capture whose header passes the heuristic still makes the
      payload window throw: the declared capture length equals the reported
      remainder, which is more than was captured. */
  lemma TruncatedFrameThrows(v: View)
    requires LooksLikeE100(v) && |v.data| < v.reported
    ensures Dissect(v) == Failure(OutOfBounds)
  {
  }
}

=== FILE: hdcp2.dfy ===
/** HDCP 2 authentication messages over TCP: one message-ID byte followed by
    a body whose length is fixed by the message ID.  The dissector accepts a
    buffer only when the ID is known and the reported length after the ID
    byte is exactly that fixed length, then splits the body into its
    fixed-width fields. */
module Hdcp2 {
  import opened Wrappers
  import opened ByteView

  const IdAkeInit: nat := 2
  const IdAkeSendCert: nat := 3
  const IdAkeNoStoredKm: nat := 4
  const IdAkeStoredKm: nat := 5
  const IdAkeSendRrx: nat := 6
  const IdAkeSendHPrime: nat := 7
  const IdAkeSendPairingInfo: nat := 8
  const IdLcInit: nat := 9
  const IdLcSendLPrime: nat := 10
  const IdSkeSendEks: nat := 11
  const IdAkeTransmitterInfo: nat := 19
  const IdAkeReceiverInfo: nat := 20
  const IdMax: nat := 31

  /** Field widths of the receiver certificate, in bytes. */
  const RcvIdLen: nat := 5
  const NLen: nat := 128
  const ELen: nat := 3
  const RcvSigLen: nat := 384
  const CertRxLen: nat := RcvIdLen + NLen + ELen + 2 + RcvSigLen

  /** The smallest LENGTH a transmitter or receiver info message may carry. */
  const InfoMinLength: nat := 6

  /** One entry of the message table: an ID and the number of bytes that
      follow the ID byte. */
  datatype MsgInfo = MsgInfo(id: nat, len: nat)

  /** The message table, in the order of its declaration. */
  const MsgInfos: seq<MsgInfo> := [
    MsgInfo(IdAkeInit, 8),
    MsgInfo(IdAkeTransmitterInfo, 5),
    MsgInfo(IdAkeSendCert, 1 + CertRxLen),
    MsgInfo(IdAkeReceiverInfo, 5),
    MsgInfo(IdAkeNoStoredKm, 128),
    MsgInfo(IdAkeStoredKm, 32),
    MsgInfo(IdAkeSendRrx, 8),
    MsgInfo(IdAkeSendHPrime, 32),
    MsgInfo(IdAkeSendPairingInfo, 16),
    MsgInfo(IdLcInit, 8),
    MsgInfo(IdLcSendLPrime, 32),
    MsgInfo(IdSkeSendEks, 24)
  ]

  /** The registration loop: the lookup map after the first `n` entries
      have been inserted in turn, a later entry replacing an earlier one
      with the same ID. */
  function BuildTable(infos: seq<MsgInfo>, n: nat): (table: map<nat, nat>)
    requires n <= |infos|
    ensures forall i :: 0 <= i < n ==> infos[i].id in table
  {
    if n == 0 then map[]
    else BuildTable(infos, n - 1)[infos[n - 1].id := infos[n - 1].len]
  }

  const MsgTable: map<nat, nat> := BuildTable(MsgInfos, |MsgInfos|)

  /** The IDs are distinct, so the lookup map holds exactly the declared
      lengths. */
  lemma MsgTableContents()
    ensures MsgTable.Keys == {
      IdAkeInit, IdAkeTransmitterInfo, IdAkeSendCert, IdAkeReceiverInfo,
      IdAkeNoStoredKm, IdAkeStoredKm, IdAkeSendRrx, IdAkeSendHPrime,
      IdAkeSendPairingInfo, IdLcInit, IdLcSendLPrime, IdSkeSendEks}
    ensures && MsgTable[IdAkeInit] == 8 && MsgTable[IdAkeTransmitterInfo] == 5
            && MsgTable[IdAkeSendCert] == 523 && MsgTable[IdAkeReceiverInfo] == 5
            && MsgTable[IdAkeNoStoredKm] == 128 && MsgTable[IdAkeStoredKm] == 32
            && MsgTable[IdAkeSendRrx] == 8 && MsgTable[IdAkeSendHPrime] == 32
            && MsgTable[IdAkeSendPairingInfo] == 16 && MsgTable[IdLcInit] == 8
            && MsgTable[IdLcSendLPrime] == 32 && MsgTable[IdSkeSendEks] == 24
  {
    var s := MsgInfos;
    var t0 := BuildTable(s, 0);
    var t1 := BuildTable(s, 1);
    var t2 := BuildTable(s, 2);
    var t3 := BuildTable(s, 3);
    var t4 := BuildTable(s, 4);
    var t5 := BuildTable(s, 5);
    var t6 := BuildTable(s, 6);
    var t7 := BuildTable(s, 7);
    var t8 := BuildTable(s, 8);
    var t9 := BuildTable(s, 9);
    var t10 := BuildTable(s, 10);
    var t11 := BuildTable(s, 11);
    var t12 := BuildTable(s, 12);
    assert t0.Keys == {};
    assert t1 == t0[IdAkeInit := 8];
    assert t2 == t1[IdAkeTransmitterInfo := 5];
    assert t3 == t2[IdAkeSendCert := 523];
    assert t4 == t3[IdAkeReceiverInfo := 5];
    assert t5 == t4[IdAkeNoStoredKm := 128];
    assert t6 == t5[IdAkeStoredKm := 32];
    assert t7 == t6[IdAkeSendRrx := 8];
    assert t8 == t7[IdAkeSendHPrime := 32];
    assert t9 == t8[IdAkeSendPairingInfo := 16];
    assert t10 == t9[IdLcInit := 8];
    assert t11 == t10[IdLcSendLPrime := 32];
    assert t12 == t11[IdSkeSendEks := 24];
    assert t4.Keys == {IdAkeInit, IdAkeTransmitterInfo, IdAkeSendCert, IdAkeReceiverInfo};
    assert t8.Keys == t4.Keys + {IdAkeNoStoredKm, IdAkeStoredKm, IdAkeSendRrx, IdAkeSendHPrime};
  }

  /** Every known ID is within ID_MAX, so the ID_MAX test never rejects a
      message that the table would accept. */
  lemma KnownIdsBelowMax()
    ensures forall id :: id in MsgTable ==> id <= IdMax
  {
    MsgTableContents();
  }

  /** The fields of a message, in wire order. */
  datatype FieldKind =
    | MsgId
    | RTx | RRx | RN | RIv
    | TxLength | TxVersion | TxLocPrecompute
    | RxLength | RxVersion | RxLocPrecompute
    | Repeater | CertRcvId | CertN | CertE | Reserved | CertRcvSig
    | EKpubKm | EKhKm | M | HPrime | LPrime | EDkeyKs
    | Unknown

  function Width(f: FieldKind): nat {
    match f
    case MsgId => 1
    case RTx | RRx | RN | RIv => 8
    case TxLength | RxLength => 2
    case TxVersion | RxVersion => 1
    case TxLocPrecompute | RxLocPrecompute => 2
    case Repeater => 1
    case CertRcvId => RcvIdLen
    case CertN => NLen
    case CertE => ELen
    case Reserved => 2
    case CertRcvSig => RcvSigLen
    case EKpubKm => 128
    case EKhKm | M => 16
    case HPrime | LPrime => 32
    case EDkeyKs => 16
    case Unknown => 0
  }

  /** The body fields the dissector adds for each message ID; an ID outside
      the switch adds none. */
  function Body(id: nat): seq<FieldKind> {
    if id == IdAkeInit then [RTx]
    else if id == IdAkeTransmitterInfo then [TxLength, TxVersion, TxLocPrecompute]
    else if id == IdAkeSendCert then [Repeater, CertRcvId, CertN, CertE, Reserved, CertRcvSig]
    else if id == IdAkeReceiverInfo then [RxLength, RxVersion, RxLocPrecompute]
    else if id == IdAkeNoStoredKm then [EKpubKm]
    else if id == IdAkeStoredKm then [EKhKm, M]
    else if id == IdAkeSendRrx then [RRx]
    else if id == IdAkeSendHPrime then [HPrime]
    else if id == IdAkeSendPairingInfo then [EKhKm]
    else if id == IdLcInit then [RN]
    else if id == IdLcSendLPrime then [LPrime]
    else if id == IdSkeSendEks then [EDkeyKs, RIv]
    else []
  }

  function TotalWidth(fields: seq<FieldKind>): nat
    decreases |fields|
  {
    if fields == [] then 0 else Width(fields[0]) + TotalWidth(fields[1..])
  }

  /** The two tables of the source agree: for every known ID the fields the
      switch adds cover exactly the length the message table promises. */
  lemma BodyMatchesTable(id: nat)
    requires id in MsgTable
    ensures TotalWidth(Body(id)) == MsgTable[id]
    ensures forall i :: 0 <= i < |Body(id)| ==> Width(Body(id)[i]) > 0
  {
    MsgTableContents();
    if id == IdAkeSendCert {
      CertBodyWidth();
    } else if id == IdAkeTransmitterInfo || id == IdAkeReceiverInfo {
      InfoBodyWidths();
    } else {
      ShortBodyWidths();
    }
    BodyWidthsPositive(id);
  }

  /** No field the switch adds is empty. */
  lemma BodyWidthsPositive(id: nat)
    ensures forall i :: 0 <= i < |Body(id)| ==> Width(Body(id)[i]) > 0
  {
    var b := Body(id);
    forall i | 0 <= i < |b|
      ensures Width(b[i]) > 0
    {
      assert b[i] != Unknown && b[i] != MsgId;
    }
  }

  lemma CertBodyWidth()
    ensures TotalWidth(Body(IdAkeSendCert)) == 1 + CertRxLen
  {
    var b := Body(IdAkeSendCert);
    assert TotalWidth(b[5..]) == 384;
    assert TotalWidth(b[4..]) == 386;
    assert TotalWidth(b[3..]) == 389;
    assert TotalWidth(b[2..]) == 517;
    assert TotalWidth(b[1..]) == 522;
  }

  lemma InfoBodyWidths()
    ensures TotalWidth(Body(IdAkeTransmitterInfo)) == 5
    ensures TotalWidth(Body(IdAkeReceiverInfo)) == 5
  {
    assert TotalWidth(Body(IdAkeTransmitterInfo)[2..]) == 2;
    assert TotalWidth(Body(IdAkeReceiverInfo)[2..]) == 2;
  }

  lemma ShortBodyWidths()
    ensures && TotalWidth(Body(IdAkeInit)) == 8 && TotalWidth(Body(IdAkeNoStoredKm)) == 128
            && TotalWidth(Body(IdAkeStoredKm)) == 32 && TotalWidth(Body(IdAkeSendRrx)) == 8
            && TotalWidth(Body(IdAkeSendHPrime)) == 32 && TotalWidth(Body(IdAkeSendPairingInfo)) == 16
            && TotalWidth(Body(IdLcInit)) == 8 && TotalWidth(Body(IdLcSendLPrime)) == 32
            && TotalWidth(Body(IdSkeSendEks)) == 24
  {
    assert TotalWidth(Body(IdAkeStoredKm)[1..]) == 16;
    assert TotalWidth(Body(IdSkeSendEks)[1..]) == 8;
  }

  /** Correctly shaped chunks flatten to as many bytes as the fields cover. */
  lemma {:induction false} FlattenLength(chunks: seq<seq<byte>>, fields: seq<FieldKind>)
    requires Shaped(chunks, fields)
    ensures |Flatten(chunks)| == TotalWidth(fields)
    decreases |fields|
  {
    if fields != [] {
      assert Shaped(chunks[1..], fields[1..]);
      FlattenLength(chunks[1..], fields[1..]);
    }
  }

  /** The chunks laid end to end. */
  function Flatten(chunks: seq<seq<byte>>): (b: seq<byte>)
    decreases |chunks|
  {
    if chunks == [] then [] else chunks[0] + Flatten(chunks[1..])
  }

  /** Chunks whose widths are those of `fields`. */
  predicate Shaped(chunks: seq<seq<byte>>, fields: seq<FieldKind>) {
    && |chunks| == |fields|
    && forall i :: 0 <= i < |fields| ==> |chunks[i]| == Width(fields[i])
  }

  /** The cursor walk: each field in turn is bounds-checked against the
      captured bytes and cut off the front. */
  function Split(v: View, fields: seq<FieldKind>, off: nat): (r: Result<seq<seq<byte>>, Error>)
    requires off <= |v.data|
    ensures r.Success? <==> off + TotalWidth(fields) <= |v.data|
    ensures r.Success? ==> Shaped(r.value, fields)
    ensures r.Success? ==> Flatten(r.value) == v.data[off..off + TotalWidth(fields)]
    decreases |fields|
  {
    if fields == [] then Success([])
    else
      var end :- Field(v, off, Width(fields[0]));
      var rest :- Split(v, fields[1..], end);
      assert v.data[off..end] + v.data[end..end + TotalWidth(fields[1..])]
        == v.data[off..off + TotalWidth(fields)];
      Success([v.data[off..end]] + rest)
  }

  /** Chunks of a given shape are determined by their concatenation. */
  lemma {:induction false} FlattenInjective(a: seq<seq<byte>>, b: seq<seq<byte>>, fields: seq<FieldKind>)
    requires Shaped(a, fields) && Shaped(b, fields)
    requires Flatten(a) == Flatten(b)
    ensures a == b
    decreases |fields|
  {
    if fields != [] {
      var n := Width(fields[0]);
      assert a[0] == Flatten(a)[..n];
      assert b[0] == Flatten(b)[..n];
      assert Flatten(a[1..]) == Flatten(a)[n..];
      assert Flatten(b[1..]) == Flatten(b)[n..];
      assert Shaped(a[1..], fields[1..]);
      assert Shaped(b[1..], fields[1..]);
      FlattenInjective(a[1..], b[1..], fields[1..]);
      assert a == [a[0]] + a[1..];
      assert b == [b[0]] + b[1..];
    }
  }

  /** Splitting a flattened, correctly shaped chunk list gives the chunks
      back. */
  lemma SplitFlatten(chunks: seq<seq<byte>>, fields: seq<FieldKind>)
    requires Shaped(chunks, fields)
    requires TotalWidth(fields) <= MaxLength
    ensures |Flatten(chunks)| == TotalWidth(fields)
    ensures Split(RawView(Flatten(chunks), |Flatten(chunks)|), fields, 0) == Success(chunks)
  {
    FlattenLength(chunks, fields);
    var v: View := RawView(Flatten(chunks), |Flatten(chunks)|);
    var r := Split(v, fields, 0);
    assert v.data[0..TotalWidth(fields)] == v.data;
    FlattenInjective(r.value, chunks, fields);
  }

  /** What the dissector reports besides the raw fields: the transmitter
      and receiver info checks and the certificate's repeater bit and
      reserved-bits check. */
  datatype Detail =
    | Plain
    | Info(length: nat, version: nat, locPrecompute: bool, lengthTooShort: bool, versionNot2: bool)
    | Cert(repeater: bool, reserved: nat, reservedNotZero: bool)

  /** The reserved word of a certificate draws a warning unless every bit
      other than bit 12 is clear. */
  function ReservedWarning(reserved: nat): (w: bool)
    requires reserved < U16Limit
    ensures w <==> reserved != 0 && reserved != 0x1000
  {
    reserved % 0x1000 != 0 || reserved / 0x2000 != 0
  }

  /** On the 16-bit word the source tests, `& 0xEFFF` keeps bits 0 to 11
      and 13 to 15, the arithmetic of ReservedWarning. */
  lemma ReservedMaskIsArithmetic(x: bv16)
    ensures (x & 0xEFFF != 0) <==> (x % 0x1000 != 0 || x / 0x2000 != 0)
  {
  }

  /** Bit 0 of a word, as the source tests it with `& 0x01`. */
  function LowBit(x: nat): (b: bool)
    requires x < U16Limit
    ensures b <==> x % 2 == 1
  {
    (x as bv16) & 0x0001 == 0x0001
  }

  /** A big-endian word is odd exactly when its low byte is. */
  lemma WordParity(hi: byte, lo: byte)
    ensures (hi as int * 0x100 + lo) % 2 == lo % 2
  {
    assert hi as int * 0x100 + lo == 2 * (hi as int * 0x80) + lo;
  }

  /** The checks on a transmitter or receiver info message: LENGTH is the
      big-endian word at bytes 1 and 2, VERSION is byte 3, and the locality
      precompute flag is bit 0 of the big-endian word at bytes 4 and 5. */
  function InfoDetail(v: View): (d: Detail)
    requires BytesExist(v, 0, 6)
    ensures d.Info? && d.length < U16Limit && d.version < 0x100
    ensures d.length == v.data[1] as int * 0x100 + v.data[2]
    ensures d.version == v.data[3]
    ensures d.locPrecompute <==> v.data[5] % 2 == 1
    ensures d.lengthTooShort <==> d.length < InfoMinLength
    ensures d.versionNot2 <==> d.version != 2
  {
    WordParity(v.data[4], v.data[5]);
    var length := GetU16(v, 1, BigEndian);
    var version := GetU8(v, 3);
    Info(length, version, LowBit(GetU16(v, 4, BigEndian)),
      length < InfoMinLength, version != 2)
  }

  /** The checks made on the message's bytes, once they are known to be
      captured. */
  function Annotate(v: View, id: nat): (d: Detail)
    requires id in MsgTable && BytesExist(v, 0, 1 + MsgTable[id])
    ensures d.Info? <==> id == IdAkeTransmitterInfo || id == IdAkeReceiverInfo
    ensures d.Info? ==> BytesExist(v, 0, 6) && d == InfoDetail(v)
    ensures d.Cert? <==> id == IdAkeSendCert
    ensures d.Cert? ==>
      && BytesExist(v, 0, 140)
      && (d.repeater <==> v.data[1] % 2 == 1)
      && d.reserved == v.data[138] as int * 0x100 + v.data[139]
      && (d.reservedNotZero <==> d.reserved != 0 && d.reserved != 0x1000)
  {
    MsgTableContents();
    if id == IdAkeTransmitterInfo || id == IdAkeReceiverInfo then InfoDetail(v)
    else if id == IdAkeSendCert then
      var reserved := GetU16(v, 138, BigEndian);
      Cert(LowBit(GetU8(v, 1)), reserved, ReservedWarning(reserved))
    else Plain
  }

  datatype Message = Message(id: nat, fields: seq<FieldKind>, chunks: seq<seq<byte>>, detail: Detail)

  datatype Dissection = NotMine | Dissected(msg: Message, consumed: nat)

  /** The plausibility checks made before anything is added to the tree. */
  predicate Accepts(v: View) {
    && |v.data| >= 1
    && v.data[0] in MsgTable
    && MsgTable[v.data[0]] == v.reported - 1
  }

  /** dissect_hdcp2.  Every field, the ID byte included, is bounds-checked
      against the captured bytes, so an accepted but truncated message
      raises a bounds failure. */
  function Dissect(v: View): (r: Result<Dissection, Error>)
    ensures |v.data| < 1 ==> r == Success(NotMine)
    ensures |v.data| >= 1 && v.data[0] > IdMax ==> r == Success(NotMine)
    ensures r == Success(NotMine) <==> !Accepts(v)
    ensures Accepts(v) ==> (r.Failure? <==> |v.data| < v.reported)
    ensures r.Success? && r.value.Dissected? ==>
      && r.value.consumed == v.reported == |v.data|
      && r.value.msg.id == v.data[0]
      && r.value.msg.fields == [MsgId] + Body(v.data[0])
      && Shaped(r.value.msg.chunks, r.value.msg.fields)
      && Flatten(r.value.msg.chunks) == v.data
      && r.value.msg.detail == Annotate(v, v.data[0])
  {
    if |v.data| < 1 then Success(NotMine)
    else
      var id := GetU8(v, 0);
      if id > IdMax then
        KnownIdsBelowMax();
        Success(NotMine)
      else if id !in MsgTable || MsgTable[id] != v.reported - 1 then Success(NotMine)
      else
        BodyMatchesTable(id);
        var fields := [MsgId] + Body(id);
        assert fields[1..] == Body(id);
        var chunks :- Split(v, fields, 0);
        Success(Dissected(Message(id, fields, chunks, Annotate(v, id)), v.reported))
  }

  /** dissect_hdcp2_heur: true exactly when the dissector accepts. */
  function Heuristic(v: View): (r: Result<bool, Error>)
    ensures r.Success? ==> (r.value <==> Accepts(v))
    ensures r.Failure? <==> Accepts(v) && |v.data| < v.reported
  {
    var d :- Dissect(v);
    if d.Dissected? then
      MsgTableContents();
      Success(d.consumed > 0)
    else Success(false)
  }

  /** Round trip: a message built from a known ID and body chunks of the
      right widths is accepted and split back into the same chunks. */
  lemma DissectEncode(id: nat, body: seq<seq<byte>>)
    requires id < 0x100 && id in MsgTable
    requires Shaped(body, Body(id))
    ensures var bytes := [id] + Flatten(body);
      && |bytes| == 1 + MsgTable[id] <= MaxLength
      && var d := Dissect(RawView(bytes, |bytes|));
         d.Success? && d.value.Dissected? && d.value.msg.chunks == [[id]] + body
  {
    BodyMatchesTable(id);
    MsgTableContents();
    var chunks := [[id]] + body;
    var fields := [MsgId] + Body(id);
    assert chunks[1..] == body && fields[1..] == Body(id);
    assert Shaped(chunks, fields);
    assert Flatten(chunks) == [id] + Flatten(body);
    FlattenLength(body, Body(id));
    SplitFlatten(chunks, fields);
  }
}

=== FILE: interlink.dfy ===
/** The Interlink envelope: the magic "ILNK", a little-endian 12-byte header
    (version, command, sequence, flags) and a 4-byte block header (type,
    version, length).  The payload, everything after byte 16, goes to the
    sub-dissector registered for the block's type/version pair, or to the
    generic "data" dissector when none is registered. */
module Interlink {
  import opened Wrappers
  import opened ByteView

  /** "ILNK" in ASCII. */
  const Magic: seq<byte> := [0x49, 0x4C, 0x4E, 0x4B]

  /** Magic (4) + header (8) + block header (4). */
  const HeaderLen: nat := 16

  /** The flags word and the two bits the protocol defines; the other bits
      are carried in `raw` and otherwise ignored. */
  datatype Flags = Flags(raw: nat, reqAck: bool, incAckPort: bool)

  datatype Header = Header(
    version: nat, cmd: nat, seqNum: nat, flags: Flags,
    blockType: nat, blockVersion: nat, blockLength: nat)

  /** A sub-dissector handle: the fallback "data" dissector or one registered
      in the "interlink.type_version" table. */
  datatype Handler = DataHandler | SubDissector(name: string)

  /** The "interlink.type_version" dissector table, fixed after start-up. */
  type Registry = map<nat, Handler>

  datatype Dissection = Dissection(
    header: Header, key: nat, handler: Handler, payload: View, consumed: nat)

  /** Bit 0 is REQ_ACK, bit 1 is INC_ACK_PORT. */
  function DecodeFlags(raw: nat): (f: Flags)
    requires raw < U16Limit
    ensures f.raw == raw
    ensures f.reqAck <==> (raw as bv16) & 0x0001 != 0
    ensures f.incAckPort <==> (raw as bv16) & 0x0002 != 0
  {
    Flags(raw, raw % 2 == 1, (raw / 2) % 2 == 1)
  }

  /** The dispatch key `type << 8 | version`: the type in the high byte and
      the version in the low byte of a 16-bit word. */
  function TypeVersion(blockType: nat, blockVersion: nat): (key: nat)
    requires blockType < 0x100 && blockVersion < 0x100
    ensures key < U16Limit
    ensures key / 0x100 == blockType && key % 0x100 == blockVersion
  {
    blockType * 0x100 + blockVersion
  }

  /** On the 16-bit word the source computes in, shifting a byte up by 8 and
      or-ing in another byte is the placement TypeVersion makes. */
  lemma ShiftOrIsPlacement(t: bv16, v: bv16)
    requires t < 0x100 && v < 0x100
    ensures (t << 8) | v == t * 0x100 + v
  {
  }

  /** The key determines the type/version pair: no two pairs share a
      handler slot. */
  lemma TypeVersionInjective(t1: nat, v1: nat, t2: nat, v2: nat)
    requires t1 < 0x100 && v1 < 0x100 && t2 < 0x100 && v2 < 0x100
    requires TypeVersion(t1, v1) == TypeVersion(t2, v2)
    ensures t1 == t2 && v1 == v2
  {
  }

  /** dissector_get_uint_handle, then the fallback to "data" when it
      returns NULL. */
  function Resolve(table: Registry, key: nat): (h: Handler)
    ensures key in table ==> h == table[key]
    ensures key !in table ==> h == DataHandler
    ensures h == DataHandler || h in table.Values
  {
    if key in table then table[key] else DataHandler
  }

  /** The offset reached after the header and the block header; the source
      advances field by field when it builds a tree and in one step when it
      does not. */
  function HeaderEnd(tree: bool): nat {
    var afterHeader := if tree then 0 + 4 + 2 + 2 + 2 else 0 + 10;
    var afterFlags := afterHeader + 2;
    if tree then afterFlags + 1 + 1 + 2 else afterFlags + 4
  }

  lemma HeaderEndIgnoresTree()
    ensures HeaderEnd(true) == HeaderEnd(false) == HeaderLen
  {
  }

  /** dissect_interlink.  The protocol item spans the 16 header bytes, so a
      shorter capture raises a bounds failure. */
  function Dissect(v: View, table: Registry, tree: bool): (r: Result<Dissection, Error>)
    ensures r.Success? <==> |v.data| >= HeaderLen
    ensures r.Success? ==>
      && r.value.consumed == |v.data|
      && r.value.payload.data == v.data[HeaderLen..]
      && r.value.payload.reported == v.reported - HeaderLen
      && r.value.key == v.data[12] as int * 0x100 + v.data[13]
      && r.value.handler == Resolve(table, r.value.key)
  {
    var _ :- Field(v, 0, HeaderLen);
    var blockType := GetU8(v, 12);
    var blockVersion := GetU8(v, 13);
    var key := TypeVersion(blockType, blockVersion);
    var header := Header(
      GetU16(v, 4, LittleEndian), GetU16(v, 6, LittleEndian), GetU16(v, 8, LittleEndian),
      DecodeFlags(GetU16(v, 10, LittleEndian)),
      blockType, blockVersion, GetU16(v, 14, LittleEndian));
    var payload := SubsetRemaining(v, HeaderEnd(tree)).value;
    Success(Dissection(header, key, Resolve(table, key), payload, |v.data|))
  }

  /** Building the tree or not makes no difference to the result. */
  lemma DissectIgnoresTree(v: View, table: Registry)
    ensures Dissect(v, table, true) == Dissect(v, table, false)
  {
    HeaderEndIgnoresTree();
  }

  /** dissect_interlink_heur: the magic probe, then the dissector, whose
      bounds failures propagate. */
  function Heuristic(v: View, table: Registry, tree: bool): (r: Result<bool, Error>)
    ensures !BytesExist(v, 0, 4) ==> r == Success(false)
    ensures BytesExist(v, 0, 4) && v.data[..4] != Magic ==> r == Success(false)
    ensures r == Success(true) <==> BytesExist(v, 0, HeaderLen) && v.data[..4] == Magic
    ensures r.Failure? <==> BytesExist(v, 0, 4) && v.data[..4] == Magic && !BytesExist(v, 0, HeaderLen)
  {
    if !BytesExist(v, 0, 4) || v.data[..4] != Magic then Success(false)
    else
      var _ :- Dissect(v, table, tree);
      Success(true)
  }

  /** Header field values that fit their wire widths and flags that agree
      with their raw word. */
  predicate WellFormed(h: Header) {
    && h.version < U16Limit && h.cmd < U16Limit && h.seqNum < U16Limit
    && h.flags.raw < U16Limit && h.flags == DecodeFlags(h.flags.raw)
    && h.blockType < 0x100 && h.blockVersion < 0x100 && h.blockLength < U16Limit
  }

  function Encode(h: Header): (b: seq<byte>)
    requires WellFormed(h)
    ensures |b| == HeaderLen
  {
    Magic + EncodeU16(h.version, LittleEndian) + EncodeU16(h.cmd, LittleEndian)
    + EncodeU16(h.seqNum, LittleEndian) + EncodeU16(h.flags.raw, LittleEndian)
    + [h.blockType, h.blockVersion] + EncodeU16(h.blockLength, LittleEndian)
  }

  /** Round trip: an encoded header followed by any payload is recognised
      and decodes to the same header; the payload, not bounded by the block
      length, goes to the handler registered for the type/version key. */
  lemma {:induction false} DissectEncode(h: Header, payload: seq<byte>, table: Registry, tree: bool)
    requires WellFormed(h)
    requires HeaderLen + |payload| <= MaxLength
    ensures var v := RawView(Encode(h) + payload, HeaderLen + |payload|);
      && Heuristic(v, table, tree) == Success(true)
      && Dissect(v, table, tree) == Success(Dissection(
           h, h.blockType * 0x100 + h.blockVersion,
           Resolve(table, h.blockType * 0x100 + h.blockVersion),
           RawView(payload, |payload|), HeaderLen + |payload|))
  {
    var v: View := RawView(Encode(h) + payload, HeaderLen + |payload|);
    assert v.data[..HeaderLen] == Encode(h);
    assert v.data[HeaderLen..] == payload;
    HeaderReadsBack(v, h);
    HeaderEndIgnoresTree();
  }

  /** Every header field reads back from its wire image. */
  lemma HeaderReadsBack(v: View, h: Header)
    requires WellFormed(h)
    requires |v.data| >= HeaderLen && v.data[..HeaderLen] == Encode(h)
    ensures v.data[..4] == Magic
    ensures GetU16(v, 4, LittleEndian) == h.version && GetU16(v, 6, LittleEndian) == h.cmd
    ensures GetU16(v, 8, LittleEndian) == h.seqNum && GetU16(v, 10, LittleEndian) == h.flags.raw
    ensures GetU8(v, 12) == h.blockType && GetU8(v, 13) == h.blockVersion
    ensures GetU16(v, 14, LittleEndian) == h.blockLength
  {
    var e := Encode(h);
    var d := v.data;
    assert d[..4] == e[..4] == Magic;
    assert d[4..6] == e[4..6] == EncodeU16(h.version, LittleEndian);
    assert d[6..8] == e[6..8] == EncodeU16(h.cmd, LittleEndian);
    assert d[8..10] == e[8..10] == EncodeU16(h.seqNum, LittleEndian);
    assert d[10..12] == e[10..12] == EncodeU16(h.flags.raw, LittleEndian);
    assert d[12] == e[12] == h.blockType && d[13] == e[13] == h.blockVersion;
    assert d[14..16] == e[14..16] == EncodeU16(h.blockLength, LittleEndian);
    U16ReadsEncoding(v, 4, h.version, LittleEndian);
    U16ReadsEncoding(v, 6, h.cmd, LittleEndian);
    U16ReadsEncoding(v, 8, h.seqNum, LittleEndian);
    U16ReadsEncoding(v, 10, h.flags.raw, LittleEndian);
    U16ReadsEncoding(v, 14, h.blockLength, LittleEndian);
  }
}

=== FILE: redbackli.dfy ===
/** Redback Lawful Intercept: a chain of AVPs (one type byte, one length
    byte, `length` value bytes) ending at an End-Of-Header AVP, followed by
    the intercepted IP packet.  The heuristic validates the chain; the
    dissector walks it and hands the rest of the buffer to IP. */
module RedbackLi {
  import opened Wrappers
  import opened ByteView

  const AvpEoh: nat := 0
  const AvpSeqNo: nat := 1
  const AvpLiid: nat := 2
  const AvpSessId: nat := 3
  const AvpDir: nat := 4
  const AvpLabel: nat := 20
  const AvpAcctId: nat := 40

  /** Three 4-byte integer AVPs (2 + 4 each) and an empty End-Of-Header. */
  const IntSize: nat := 6
  const EohSize: nat := 2
  const MinSize: nat := 3 * IntSize + EohSize

  /** The types that must be four bytes long and must all be present. */
  const IntTypes: set<nat> := {AvpSeqNo, AvpLiid, AvpSessId}

  /** One AVP header: where it starts, its type and its declared value length. */
  datatype Avp = Avp(offset: nat, avpType: nat, avpLen: nat)

  /** The bytes an AVP occupies: its two header bytes and its value. */
  function AvpSpan(a: Avp): Span {
    Span(a.offset, 2 + a.avpLen)
  }

  /** The heuristic's per-AVP rule. */
  predicate Acceptable(a: Avp) {
    if a.avpType in IntTypes then a.avpLen == 4
    else if a.avpType == AvpEoh then a.avpLen <= 1 && a.offset != 0
    else a.avpType in {AvpLabel, AvpDir, AvpAcctId}
  }

  /** The AVP headers the heuristic visits from `offset` when it rejects
      nothing: it stops after End-Of-Header or when at most two captured
      bytes remain; an AVP may claim more bytes than remain. */
  function HeurChain(v: View, offset: nat): (avps: seq<Avp>)
    ensures forall i :: 0 <= i < |avps| ==> avps[i].offset + 2 < |v.data|
    decreases |v.data| - offset
  {
    if |v.data| - offset <= 2 then []
    else
      var a := Avp(offset, v.data[offset], v.data[offset + 1]);
      if a.avpType == AvpEoh then [a] else [a] + HeurChain(v, offset + 2 + a.avpLen)
  }

  /** The integer-AVP types occurring in `avps`. */
  function IntTypesIn(avps: seq<Avp>): set<nat> {
    if avps == [] then {}
    else (if avps[0].avpType in IntTypes then {avps[0].avpType} else {}) + IntTypesIn(avps[1..])
  }

  predicate AllAcceptable(avps: seq<Avp>) {
    forall i :: 0 <= i < |avps| ==> Acceptable(avps[i])
  }

  lemma ChainCons(a: Avp, rest: seq<Avp>)
    ensures AllAcceptable([a] + rest) <==> Acceptable(a) && AllAcceptable(rest)
    ensures IntTypesIn([a] + rest)
      == (if a.avpType in IntTypes then {a.avpType} else {}) + IntTypesIn(rest)
  {
    var c := [a] + rest;
    assert c[0] == a;
    assert forall i :: 0 < i < |c| ==> c[i] == rest[i - 1];
    assert forall i :: 0 <= i < |rest| ==> rest[i] == c[i + 1];
    if Acceptable(a) && AllAcceptable(rest) {
      forall i | 0 <= i < |c| ensures Acceptable(c[i]) {
        if i > 0 {
          assert c[i] == rest[i - 1];
        }
      }
    }
    assert c[1..] == rest;
  }

  /** The loop of redbackli_dissect_heur: None where the source returns
      false inside the loop, otherwise the integer-AVP types seen (the
      `avpfound` bit set). */
  function HeurWalk(v: View, offset: nat, found: set<nat>): Option<set<nat>>
    decreases |v.data| - offset
  {
    if |v.data| - offset <= 2 then Some(found)
    else
      var avpType := v.data[offset];
      var avpLen := v.data[offset + 1];
      var next := offset + 2 + avpLen;
      if avpType in IntTypes then
        if avpLen != 4 then None else HeurWalk(v, next, found + {avpType})
      else if avpType == AvpEoh then
        if avpLen > 1 || offset == 0 then None else Some(found)
      else if avpType in {AvpLabel, AvpDir, AvpAcctId} then
        HeurWalk(v, next, found)
      else None
  }

  /** The source loop agrees with the reference chain: it rejects exactly
      when some AVP of the chain is unacceptable, and otherwise adds the
      chain's integer types to what was found. */
  lemma {:induction false} HeurWalkFollowsChain(v: View, offset: nat, found: set<nat>)
    ensures var chain := HeurChain(v, offset);
      HeurWalk(v, offset, found)
        == if AllAcceptable(chain) then Some(found + IntTypesIn(chain)) else None
    decreases |v.data| - offset
  {
    if |v.data| - offset <= 2 {
      assert HeurChain(v, offset) == [];
      assert AllAcceptable([]) && found + {} == found;
    } else if v.data[offset] == AvpEoh {
      HeurEohStep(v, offset, found);
    } else {
      var a := Avp(offset, v.data[offset], v.data[offset + 1]);
      var next := offset + 2 + a.avpLen;
      var added: set<nat> := if a.avpType in IntTypes then {a.avpType} else {};
      var rest := HeurChain(v, next);
      assert HeurChain(v, offset) == [a] + rest;
      ChainCons(a, rest);
      HeurWalkStep(v, offset, found, a);
      if Acceptable(a) {
        HeurWalkFollowsChain(v, next, found + added);
        assert found + added + IntTypesIn(rest) == found + IntTypesIn([a] + rest);
      }
    }
  }

  /** The walk at an End-Of-Header AVP: the chain ends there and the walk
      accepts exactly when that AVP is acceptable. */
  lemma HeurEohStep(v: View, offset: nat, found: set<nat>)
    requires |v.data| - offset > 2 && v.data[offset] == AvpEoh
    ensures var chain := HeurChain(v, offset);
      HeurWalk(v, offset, found)
        == if AllAcceptable(chain) then Some(found + IntTypesIn(chain)) else None
  {
    var a := Avp(offset, v.data[offset], v.data[offset + 1]);
    ChainCons(a, []);
    assert [a] + [] == [a] == HeurChain(v, offset);
    assert IntTypesIn([]) == {} && AllAcceptable([]);
    assert a.avpType !in IntTypes;
    assert Acceptable(a) <==> a.avpLen <= 1 && offset != 0;
    assert found + IntTypesIn([a]) == found;
  }

  /** One step of the walk past any other AVP: it goes on, with the AVP's
      integer type added, exactly when that AVP is acceptable. */
  lemma HeurWalkStep(v: View, offset: nat, found: set<nat>, a: Avp)
    requires |v.data| - offset > 2 && v.data[offset] != AvpEoh
    requires a == Avp(offset, v.data[offset], v.data[offset + 1])
    ensures var added: set<nat> := if a.avpType in IntTypes then {a.avpType} else {};
      HeurWalk(v, offset, found)
        == if Acceptable(a) then HeurWalk(v, offset + 2 + a.avpLen, found + added) else None
  {
    if a.avpType in IntTypes {
      assert Acceptable(a) <==> a.avpLen == 4;
    } else if a.avpType in {AvpLabel, AvpDir, AvpAcctId} {
      assert Acceptable(a);
      assert found + {} == found;
    } else {
      assert !Acceptable(a);
    }
  }

  /** The outcome of redbackli_dissect: the complete AVPs consumed, the
      window handed to IP and the bytes claimed. */
  datatype Dissection = Dissection(avps: seq<Avp>, payloadOffset: nat, payload: View, consumed: nat)

  /** Why the dissecting walk stopped at `end`: the last AVP consumed was
      End-Of-Header, at most two reported bytes remain, or the next AVP is
      longer than what remains. */
  predicate WalkStopsAt(v: View, avps: seq<Avp>, end: nat) {
    || (avps != [] && avps[|avps| - 1].avpType == AvpEoh)
    || v.reported <= end + 2
    || (end + 1 < |v.data| && v.reported - end - 2 < v.data[end + 1])
  }

  /** The loop reached `a.offset` with more than two reported bytes left,
      the AVP header there was captured, `a` holds its type and length
      bytes, and its value ends within the reported length. */
  predicate ReadsFrom(v: View, a: Avp) {
    && a.offset + 2 < v.reported
    && a.offset + 2 <= |v.data|
    && a.avpType == v.data[a.offset]
    && a.avpLen == v.data[a.offset + 1]
    && a.offset + 2 + a.avpLen <= v.reported
  }

  /** The loop of redbackli_dissect.  Its remaining length is the REPORTED
      one, but the type and length bytes are read from captured data; with
      a tree, each non-empty AVP value is also handed to the tree and must
      have been captured. */
  function DissectWalk(v: View, offset: nat, tree: bool): (r: Result<(seq<Avp>, nat), Error>)
    requires offset <= v.reported
    ensures r.Success? ==> offset <= r.value.1 <= v.reported
    decreases v.reported - offset
  {
    if v.reported - offset <= 2 then Success(([], offset))
    else
      var next :- NextAvp(v, offset, tree);
      match next
      case None => Success(([], offset))
      case Some(a) =>
        if a.avpType == AvpEoh then Success(([a], offset + 2 + a.avpLen))
        else
          var (rest, end) :- DissectWalk(v, offset + 2 + a.avpLen, tree);
          Success(([a] + rest, end))
  }

  /** What the loop of redbackli_dissect consumes: AVPs that tile the
      buffer from `offset` to where it stopped, only the last of them
      End-Of-Header, and it stopped for one of the loop's reasons. */
  lemma {:induction false} WalkShape(v: View, offset: nat, tree: bool, avps: seq<Avp>, end: nat)
    requires offset <= v.reported
    requires DissectWalk(v, offset, tree) == Success((avps, end))
    ensures Tiles(avps, AvpSpan, offset, end)
    ensures forall i :: 0 <= i < |avps| ==> ReadsFrom(v, avps[i])
    ensures forall i :: 0 <= i < |avps| - 1 ==> avps[i].avpType != AvpEoh
    ensures WalkStopsAt(v, avps, end)
    decreases v.reported - offset
  {
    WalkNext(v, offset, tree, avps, end);
    if avps != [] {
      var a := avps[0];
      if a.avpType == AvpEoh {
        WalkEoh(v, a);
      } else {
        WalkShape(v, offset + 2 + a.avpLen, tree, avps[1..], end);
        WalkCons(v, a, avps[1..], end);
        assert [a] + avps[1..] == avps;
      }
    }
  }

  /** One step of a successful walk: either it stopped where it started,
      for one of the loop's reasons, or it consumed the AVP read at
      `offset` and, unless that was End-Of-Header, went on past it. */
  lemma WalkNext(v: View, offset: nat, tree: bool, avps: seq<Avp>, end: nat)
    requires offset <= v.reported
    requires DissectWalk(v, offset, tree) == Success((avps, end))
    ensures avps == [] ==> end == offset && WalkStopsAt(v, [], offset)
    ensures avps != [] ==>
      && ReadsFrom(v, avps[0]) && avps[0].offset == offset
      && (avps[0].avpType == AvpEoh ==> avps == [avps[0]] && end == offset + 2 + avps[0].avpLen)
      && (avps[0].avpType != AvpEoh ==>
            DissectWalk(v, offset + 2 + avps[0].avpLen, tree) == Success((avps[1..], end)))
  {
    if v.reported - offset > 2 {
      var next := NextAvp(v, offset, tree);
      assert next.Success?;
      if next.value.Some? {
        var a := next.value.value;
        if a.avpType != AvpEoh {
          var r := DissectWalk(v, offset + 2 + a.avpLen, tree);
          assert r.Success? && avps == [a] + r.value.0 && end == r.value.1;
          assert avps[1..] == r.value.0;
        }
      }
    }
  }


  /** The shape WalkShape states has only one solution: any AVP list that
      tiles the buffer from `offset`, is read from the bytes under the loop
      guard, has End-Of-Header only last and stops for one of the loop's
      reasons is the one the loop returns, with the same end. */
  lemma ShapeDeterminesWalk(v: View, offset: nat, tree: bool,
                            avps: seq<Avp>, end: nat, bs: seq<Avp>, stop: nat)
    requires offset <= v.reported
    requires DissectWalk(v, offset, tree) == Success((avps, end))
    requires Tiles(bs, AvpSpan, offset, stop)
    requires forall i :: 0 <= i < |bs| ==> ReadsFrom(v, bs[i])
    requires forall i :: 0 <= i < |bs| - 1 ==> bs[i].avpType != AvpEoh
    requires WalkStopsAt(v, bs, stop)
    ensures bs == avps && stop == end
  {
    WalkShape(v, offset, tree, avps, end);
    ShapeUnique(v, offset, avps, end, bs, stop);
  }

  /** Two AVP lists of that shape from the same offset are the same list,
      with the same end: each AVP is fixed by the bytes at its offset, and
      neither can stop where the other goes on. */
  lemma {:induction false} ShapeUnique(v: View, offset: nat, xs: seq<Avp>, e1: nat, ys: seq<Avp>, e2: nat)
    requires Tiles(xs, AvpSpan, offset, e1)
    requires forall i :: 0 <= i < |xs| ==> ReadsFrom(v, xs[i])
    requires forall i :: 0 <= i < |xs| - 1 ==> xs[i].avpType != AvpEoh
    requires WalkStopsAt(v, xs, e1)
    requires Tiles(ys, AvpSpan, offset, e2)
    requires forall i :: 0 <= i < |ys| ==> ReadsFrom(v, ys[i])
    requires forall i :: 0 <= i < |ys| - 1 ==> ys[i].avpType != AvpEoh
    requires WalkStopsAt(v, ys, e2)
    ensures xs == ys && e1 == e2
    decreases |xs|
  {
    if xs == [] && ys == [] {
    } else if xs == [] {
      assert false;
    } else if ys == [] {
      assert false;
    } else {
      var a, b := xs[0], ys[0];
      assert ReadsFrom(v, a) && ReadsFrom(v, b) && a.offset == offset == b.offset;
      assert a == b;
      if a.avpType != AvpEoh {
        ShapeTail(v, xs, offset, e1);
        ShapeTail(v, ys, offset, e2);
        ShapeUnique(v, offset + 2 + a.avpLen, xs[1..], e1, ys[1..], e2);
        assert xs == [a] + xs[1..] && ys == [b] + ys[1..];
      } else {
        assert |xs| == 1 && |ys| == 1;
      }
    }
  }

  /** Dropping a leading AVP other than End-Of-Header keeps the shape of
      the rest, from just past that AVP. */
  lemma ShapeTail(v: View, bs: seq<Avp>, offset: nat, stop: nat)
    requires bs != [] && bs[0].avpType != AvpEoh
    requires Tiles(bs, AvpSpan, offset, stop)
    requires forall i :: 0 <= i < |bs| ==> ReadsFrom(v, bs[i])
    requires forall i :: 0 <= i < |bs| - 1 ==> bs[i].avpType != AvpEoh
    requires WalkStopsAt(v, bs, stop)
    ensures var rest := bs[1..];
      && Tiles(rest, AvpSpan, offset + 2 + bs[0].avpLen, stop)
      && (forall i :: 0 <= i < |rest| ==> ReadsFrom(v, rest[i]))
      && (forall i :: 0 <= i < |rest| - 1 ==> rest[i].avpType != AvpEoh)
      && WalkStopsAt(v, rest, stop)
  {
    var rest := bs[1..];
    assert forall i :: 0 <= i < |rest| ==> rest[i] == bs[i + 1];
  }

  /** Why the loop of redbackli_dissect throws: after complete AVPs other
      than End-Of-Header that tile the buffer from `offset` to `stop`, more
      than two reported bytes remain and reading the next AVP fails. */
  lemma {:induction false} WalkFailure(v: View, offset: nat, tree: bool) returns (avps: seq<Avp>, stop: nat)
    requires offset <= v.reported
    requires DissectWalk(v, offset, tree).Failure?
    ensures Tiles(avps, AvpSpan, offset, stop)
    ensures forall i :: 0 <= i < |avps| ==> ReadsFrom(v, avps[i]) && avps[i].avpType != AvpEoh
    ensures v.reported - stop > 2 && NextAvp(v, stop, tree).Failure?
    decreases v.reported - offset
  {
    var next := NextAvp(v, offset, tree);
    if next.Failure? {
      avps, stop := [], offset;
    } else {
      var a := next.value.value;
      var rest;
      rest, stop := WalkFailure(v, offset + 2 + a.avpLen, tree);
      avps := [a] + rest;
      assert avps[1..] == rest;
      assert forall i :: 1 <= i < |avps| ==> avps[i] == rest[i - 1];
    }
  }

  /** One step of the loop of redbackli_dissect: the type and length bytes
      of the AVP at `offset`, and none when its value is longer than the
      reported bytes that remain.  With a tree, a non-empty value must also
      have been captured. */
  function NextAvp(v: View, offset: nat, tree: bool): (r: Result<Option<Avp>, Error>)
    ensures r.Success? <==>
      && offset + 2 <= |v.data|
      && (tree && offset + 2 + v.data[offset + 1] <= v.reported && v.data[offset + 1] != 0
          ==> offset + 2 + v.data[offset + 1] <= |v.data|)
    ensures r.Success? && r.value.None? ==> v.reported < offset + 2 + v.data[offset + 1]
    ensures r.Success? && r.value.Some? ==>
      && r.value.value == Avp(offset, v.data[offset], v.data[offset + 1])
      && offset + 2 + r.value.value.avpLen <= v.reported
  {
    var avpType :- U8(v, offset);
    var avpLen :- U8(v, offset + 1);
    if v.reported < offset + 2 + avpLen then Success(None)
    else
      var _ :- if tree && avpLen != 0 then Field(v, offset + 2, avpLen) else Success(0);
      Success(Some(Avp(offset, avpType, avpLen)))
  }

  /** A walk that ends on End-Of-Header right away has consumed just it. */
  lemma WalkEoh(v: View, a: Avp)
    requires a.avpType == AvpEoh && ReadsFrom(v, a)
    ensures Tiles([a], AvpSpan, a.offset, a.offset + 2 + a.avpLen)
    ensures forall i :: 0 <= i < |[a]| ==> ReadsFrom(v, [a][i])
    ensures forall i :: 0 <= i < |[a]| - 1 ==> [a][i].avpType != AvpEoh
    ensures WalkStopsAt(v, [a], a.offset + 2 + a.avpLen)
  {
    assert [a][1..] == [];
  }

  /** Putting an AVP other than End-Of-Header in front of a walk keeps the
      walk's shape. */
  lemma WalkCons(v: View, a: Avp, rest: seq<Avp>, end: nat)
    requires a.avpType != AvpEoh && ReadsFrom(v, a)
    requires Tiles(rest, AvpSpan, a.offset + 2 + a.avpLen, end)
    requires forall i :: 0 <= i < |rest| ==> ReadsFrom(v, rest[i])
    requires forall i :: 0 <= i < |rest| - 1 ==> rest[i].avpType != AvpEoh
    requires WalkStopsAt(v, rest, end)
    ensures Tiles([a] + rest, AvpSpan, a.offset, end)
    ensures forall i :: 0 <= i < |[a] + rest| ==> ReadsFrom(v, ([a] + rest)[i])
    ensures forall i :: 0 <= i < |[a] + rest| - 1 ==> ([a] + rest)[i].avpType != AvpEoh
    ensures WalkStopsAt(v, [a] + rest, end)
  {
    var avps := [a] + rest;
    assert avps[1..] == rest;
    assert forall i :: 1 <= i < |avps| ==> avps[i] == rest[i - 1];
  }

  /** redbackli_dissect: the walk, then everything after the last complete
      AVP goes to IP; the whole captured buffer is claimed. */
  function Dissect(v: View, tree: bool): (r: Result<Dissection, Error>)
    ensures r.Success? ==>
      && r.value.consumed == |v.data|
      && r.value.payloadOffset <= |v.data|
      && r.value.payload.data == v.data[r.value.payloadOffset..]
      && r.value.payload.reported == v.reported - r.value.payloadOffset
    ensures DissectWalk(v, 0, tree).Failure? ==> r.Failure?
    ensures DissectWalk(v, 0, tree).Success? ==>
      (r.Failure? <==> |v.data| < DissectWalk(v, 0, tree).value.1)
    ensures r.Success? ==> (r.value.avps, r.value.payloadOffset) == DissectWalk(v, 0, tree).value
  {
    var (avps, end) :- DissectWalk(v, 0, tree);
    var payload :- SubsetRemaining(v, end);
    Success(Dissection(avps, end, payload, |v.data|))
  }

  /** The AVPs redbackli_dissect consumes tile the buffer from its start to
      where the IP packet begins, and the walk stopped there for one of the
      loop's reasons. */
  lemma DissectShape(v: View, tree: bool)
    ensures var r := Dissect(v, tree);
      r.Success? ==>
        && Tiles(r.value.avps, AvpSpan, 0, r.value.payloadOffset)
        && (forall i :: 0 <= i < |r.value.avps| ==> ReadsFrom(v, r.value.avps[i]))
        && WalkStopsAt(v, r.value.avps, r.value.payloadOffset)
  {
    var w := DissectWalk(v, 0, tree);
    if w.Success? {
      WalkShape(v, 0, tree, w.value.0, w.value.1);
    }
  }

  /** redbackli_dissect_heur: the size floor, the AVP walk, the three
      mandatory AVPs, then the dissector, whose bounds failures propagate. */
  function Heuristic(v: View, tree: bool): (r: Result<bool, Error>)
    ensures var chain := HeurChain(v, 0);
      (r == Success(false))
        <==> (|v.data| < MinSize || !AllAcceptable(chain) || !(IntTypes <= IntTypesIn(chain)))
    ensures r.Failure? <==> r != Success(false) && Dissect(v, tree).Failure?
  {
    if |v.data| < MinSize then Success(false)
    else
      HeurWalkFollowsChain(v, 0, {});
      match HeurWalk(v, 0, {})
      case None => Success(false)
      case Some(found) =>
        if !(AvpSeqNo in found) || !(AvpSessId in found) || !(AvpLiid in found) then Success(false)
        else
          var _ :- Dissect(v, tree);
          Success(true)
  }

  /** An AVP as a sender writes it: a type byte and a value of at most 255
      bytes, whose length goes in the length byte. */
  datatype AvpField = AvpField(avpType: byte, value: seq<byte>)

  /** AVPs that can precede End-Of-Header: none is End-Of-Header itself
      and every value fits its length byte. */
  predicate Encodable(fs: seq<AvpField>) {
    forall i :: 0 <= i < |fs| ==> fs[i].avpType != AvpEoh && |fs[i].value| < 0x100
  }

  /** The wire image of a sequence of AVPs. */
  function EncodeAvps(fs: seq<AvpField>): (b: seq<byte>)
    requires Encodable(fs)
  {
    if fs == [] then []
    else [fs[0].avpType, |fs[0].value|] + fs[0].value + EncodeAvps(fs[1..])
  }

  /** The AVP headers of an encoded sequence starting at `offset`, then,
      when `eoh` holds, that of the empty End-Of-Header right after it. */
  function Headers(fs: seq<AvpField>, offset: nat, eoh: bool): seq<Avp> {
    if fs == [] then (if eoh then [Avp(offset, AvpEoh, 0)] else [])
    else [Avp(offset, fs[0].avpType, |fs[0].value|)] + Headers(fs[1..], offset + 2 + |fs[0].value|, eoh)
  }

  /** The End-Of-Header header comes last, just past the other AVPs. */
  lemma {:induction false} HeadersEoh(fs: seq<AvpField>, offset: nat)
    ensures Headers(fs, offset, true) == Headers(fs, offset, false) + [Avp(offset + AvpsLength(fs), AvpEoh, 0)]
    decreases |fs|
  {
    if fs != [] {
      HeadersEoh(fs[1..], offset + 2 + |fs[0].value|);
    }
  }

  /** The number of bytes a sequence of AVPs takes on the wire. */
  function AvpsLength(fs: seq<AvpField>): nat {
    if fs == [] then 0 else 2 + |fs[0].value| + AvpsLength(fs[1..])
  }

  /** `data` holds, from `off` on, the type and length bytes of each AVP of
      `fs` in turn, none of them End-Of-Header, each followed by room for
      its value. */
  predicate LaidOut(data: seq<byte>, off: nat, fs: seq<AvpField>)
    decreases |fs|
  {
    || fs == []
    || (&& off + 2 + |fs[0].value| <= |data|
        && data[off] == fs[0].avpType && data[off + 1] == |fs[0].value|
        && fs[0].avpType != AvpEoh
        && LaidOut(data, off + 2 + |fs[0].value|, fs[1..]))
  }

  lemma EncodableTail(fs: seq<AvpField>)
    requires Encodable(fs) && fs != []
    ensures Encodable(fs[1..])
  {
    forall i | 0 <= i < |fs[1..]| ensures fs[1..][i] == fs[i + 1] { }
  }

  /** A layout stays a layout behind a prefix. */
  lemma {:induction false} LaidOutShift(p: seq<byte>, data: seq<byte>, off: nat, fs: seq<AvpField>)
    requires LaidOut(data, off, fs)
    ensures LaidOut(p + data, |p| + off, fs)
    decreases |fs|
  {
    if fs != [] {
      LaidOutShift(p, data, off + 2 + |fs[0].value|, fs[1..]);
      assert (p + data)[|p| + off] == data[off] && (p + data)[|p| + off + 1] == data[off + 1];
    }
  }

  /** The image of encodable AVPs lays them out and takes AvpsLength
      bytes, whatever follows it. */
  lemma {:induction false} EncodedLaidOut(fs: seq<AvpField>, after: seq<byte>)
    requires Encodable(fs)
    ensures |EncodeAvps(fs)| == AvpsLength(fs)
    ensures LaidOut(EncodeAvps(fs) + after, 0, fs)
    decreases |fs|
  {
    if fs != [] {
      var f := fs[0];
      EncodableTail(fs);
      EncodedLaidOut(fs[1..], after);
      var head := [f.avpType, |f.value|] + f.value;
      var rest := EncodeAvps(fs[1..]) + after;
      LaidOutShift(head, rest, 0, fs[1..]);
      assert EncodeAvps(fs) + after == head + rest by {
        assert EncodeAvps(fs) == head + EncodeAvps(fs[1..]);
      }
      assert (head + rest)[0] == f.avpType && (head + rest)[1] == |f.value|;
      assert f.avpType != AvpEoh;
    }
  }

  /** What a layout says about its first AVP. */
  lemma LaidOutFirst(data: seq<byte>, off: nat, fs: seq<AvpField>)
    requires LaidOut(data, off, fs) && fs != []
    ensures var l := |fs[0].value|;
      && off + 2 + l <= |data|
      && data[off] == fs[0].avpType && data[off + 1] == l
      && fs[0].avpType != AvpEoh
      && LaidOut(data, off + 2 + l, fs[1..])
      && AvpsLength(fs) == 2 + l + AvpsLength(fs[1..])
  {
  }

  /** The dissecting walk at an empty End-Of-Header with at least one more
      captured byte consumes just that End-Of-Header. */
  lemma WalkAtEoh(v: View, off: nat, tree: bool)
    requires off + 2 < |v.data| && v.data[off] == 0 && v.data[off + 1] == 0
    ensures DissectWalk(v, off, tree) == Success(([Avp(off, AvpEoh, 0)], off + 2))
  {
    assert NextAvp(v, off, tree) == Success(Some(Avp(off, AvpEoh, 0)));
  }

  /** One step of the dissecting walk over an AVP other than
      End-Of-Header, whose header and value have been captured: it yields
      `whole`, the AVP followed by what the rest of the walk yields. */
  lemma WalkStep(v: View, a: Avp, rest: seq<Avp>, whole: seq<Avp>, end: nat, tree: bool)
    requires a.avpType != AvpEoh && a.offset + 2 + a.avpLen <= |v.data|
    requires v.data[a.offset] == a.avpType && v.data[a.offset + 1] == a.avpLen
    requires v.reported - a.offset > 2
    requires DissectWalk(v, a.offset + 2 + a.avpLen, tree) == Success((rest, end))
    requires whole == [a] + rest
    ensures DissectWalk(v, a.offset, tree) == Success((whole, end))
  {
    assert NextAvp(v, a.offset, tree) == Success(Some(a));
  }

  /** The step of the dissecting walk over the first of laid-out AVPs:
      whatever headers the rest of the walk yields after it, the whole walk
      yields with the first AVP's in front. */
  lemma WalkFirstOf(v: View, off: nat, fs: seq<AvpField>, eoh: bool, end: nat, tree: bool)
    requires fs != [] && LaidOut(v.data, off, fs) && v.reported - off > 2
    requires var l := |fs[0].value|;
      DissectWalk(v, off + 2 + l, tree) == Success((Headers(fs[1..], off + 2 + l, eoh), end))
    ensures DissectWalk(v, off, tree) == Success((Headers(fs, off, eoh), end))
  {
    var l := |fs[0].value|;
    LaidOutFirst(v.data, off, fs);
    WalkStep(v, Avp(off, fs[0].avpType, l), Headers(fs[1..], off + 2 + l, eoh), Headers(fs, off, eoh), end, tree);
  }

  /** The dissecting walk over laid-out AVPs followed by an empty
      End-Of-Header and at least one more captured byte finds every AVP
      header and the End-Of-Header, and ends just past it. */
  lemma {:induction false} WalkLaidOut(v: View, off: nat, fs: seq<AvpField>, tree: bool)
    requires LaidOut(v.data, off, fs)
    requires var end := off + AvpsLength(fs);
      end + 2 < |v.data| && v.data[end] == 0 && v.data[end + 1] == 0
    ensures DissectWalk(v, off, tree) == Success((Headers(fs, off, true), off + AvpsLength(fs) + 2))
    decreases |fs|
  {
    if fs == [] {
      WalkAtEoh(v, off, tree);
    } else {
      var l := |fs[0].value|;
      LaidOutFirst(v.data, off, fs);
      WalkLaidOut(v, off + 2 + l, fs[1..], tree);
      WalkFirstOf(v, off, fs, true, off + AvpsLength(fs) + 2, tree);
    }
  }

  /** With nothing after the End-Of-Header, the walk over laid-out AVPs
      finds their headers and stops in front of the End-Of-Header. */
  lemma {:induction false} WalkLaidOutBare(v: View, off: nat, fs: seq<AvpField>, tree: bool)
    requires LaidOut(v.data, off, fs)
    requires off + AvpsLength(fs) + 2 == |v.data| == v.reported
    ensures DissectWalk(v, off, tree) == Success((Headers(fs, off, false), off + AvpsLength(fs)))
    decreases |fs|
  {
    if fs != [] {
      var l := |fs[0].value|;
      LaidOutFirst(v.data, off, fs);
      WalkLaidOutBare(v, off + 2 + l, fs[1..], tree);
      WalkFirstOf(v, off, fs, false, off + AvpsLength(fs), tree);
    }
  }

  /** redbackli_dissect once its walk has succeeded: the IP packet is
      everything from where the walk ended. */
  lemma DissectAfterWalk(v: View, avps: seq<Avp>, end: nat, tree: bool)
    requires DissectWalk(v, 0, tree) == Success((avps, end)) && end <= |v.data|
    ensures Dissect(v, tree) == Success(Dissection(avps, end, RawView(v.data[end..], v.reported - end), |v.data|))
  {
  }

  /** redbackli_dissect over laid-out AVPs, an empty End-Of-Header and at
      least one more captured byte. */
  lemma DissectLaidOut(v: View, fs: seq<AvpField>, tree: bool)
    requires LaidOut(v.data, 0, fs)
    requires var end := AvpsLength(fs);
      end + 2 < |v.data| && v.data[end] == 0 && v.data[end + 1] == 0
    ensures var end := AvpsLength(fs);
      Dissect(v, tree) == Success(Dissection(Headers(fs, 0, false) + [Avp(end, AvpEoh, 0)], end + 2,
                                             RawView(v.data[end + 2..], v.reported - (end + 2)), |v.data|))
  {
    WalkLaidOut(v, 0, fs, tree);
    HeadersEoh(fs, 0);
    DissectAfterWalk(v, Headers(fs, 0, true), AvpsLength(fs) + 2, tree);
  }

  /** The wire image of AVPs, an empty End-Of-Header and `payload` lays the
      AVPs out and has the End-Of-Header and the payload where expected. */
  lemma ImageLayout(fs: seq<AvpField>, payload: seq<byte>)
    requires Encodable(fs)
    ensures var n := |EncodeAvps(fs)|;
      var data := EncodeAvps(fs) + [0, 0] + payload;
      && n == AvpsLength(fs)
      && LaidOut(data, 0, fs)
      && data[n] == 0 && data[n + 1] == 0
      && data[n + 2..] == payload
  {
    EncodedLaidOut(fs, [0, 0] + payload);
    assert EncodeAvps(fs) + ([0, 0] + payload) == EncodeAvps(fs) + [0, 0] + payload;
  }

  /** Round trip: AVPs other than End-Of-Header, an empty End-Of-Header and
      a non-empty IP packet are dissected into the AVP headers written, and
      the IP packet is handed over whole. */
  lemma DissectEncoded(fs: seq<AvpField>, payload: seq<byte>, reported: nat, tree: bool)
    requires Encodable(fs) && |payload| > 0
    requires |EncodeAvps(fs)| + 2 + |payload| <= reported <= MaxLength
    ensures var n := |EncodeAvps(fs)|;
      var v := RawView(EncodeAvps(fs) + [0, 0] + payload, reported);
      var d := Dissect(v, tree);
      && d.Success?
      && d.value.avps == Headers(fs, 0, false) + [Avp(n, AvpEoh, 0)]
      && d.value.payloadOffset == n + 2
      && d.value.payload == RawView(payload, reported - (n + 2))
  {
    var n := |EncodeAvps(fs)|;
    var v: View := RawView(EncodeAvps(fs) + [0, 0] + payload, reported);
    ImageLayout(fs, payload);
    DissectLaidOut(v, fs, tree);
  }

  /** Without an IP packet after it the End-Of-Header is never consumed: at
      that point only two bytes remain, so the walk has already stopped and
      the End-Of-Header goes to IP. */
  lemma TrailingEohNotConsumed(fs: seq<AvpField>, tree: bool)
    requires Encodable(fs) && |EncodeAvps(fs)| + 2 <= MaxLength
    ensures var n := |EncodeAvps(fs)|;
      var v := RawView(EncodeAvps(fs) + [0, 0], n + 2);
      var d := Dissect(v, tree);
      && d.Success?
      && d.value.avps == Headers(fs, 0, false)
      && d.value.payloadOffset == n
      && d.value.payload.data == [0, 0]
  {
    var n := |EncodeAvps(fs)|;
    var v: View := RawView(EncodeAvps(fs) + [0, 0], n + 2);
    EncodedLaidOut(fs, [0, 0]);
    assert v.data[n..] == [0, 0];
    DissectLaidOutBare(v, fs, tree);
  }

  /** redbackli_dissect over laid-out AVPs followed by exactly two more
      bytes, all of them reported. */
  lemma DissectLaidOutBare(v: View, fs: seq<AvpField>, tree: bool)
    requires LaidOut(v.data, 0, fs) && AvpsLength(fs) + 2 == |v.data| == v.reported
    ensures var end := AvpsLength(fs);
      Dissect(v, tree) == Success(Dissection(Headers(fs, 0, false), end, RawView(v.data[end..], 2), |v.data|))
  {
    WalkLaidOutBare(v, 0, fs, tree);
    DissectAfterWalk(v, Headers(fs, 0, false), AvpsLength(fs), tree);
  }

  /** Consecutive AVPs are 2 + length apart, starting at `offset`, and
      only the last may be End-Of-Header. */
  predicate Linked(avps: seq<Avp>, offset: nat) {
    && (avps != [] ==> avps[0].offset == offset)
    && (forall i :: 1 <= i < |avps| ==> avps[i].offset == avps[i - 1].offset + 2 + avps[i - 1].avpLen)
    && (forall i :: 0 <= i < |avps| - 1 ==> avps[i].avpType != AvpEoh)
  }

  /** Every step of the heuristic walk moves forward by 2 + length, at least
      two bytes. */
  lemma {:induction false} HeurChainLinked(v: View, offset: nat)
    ensures Linked(HeurChain(v, offset), offset)
    decreases |v.data| - offset
  {
    if |v.data| - offset > 2 && v.data[offset] != AvpEoh {
      var a := Avp(offset, v.data[offset], v.data[offset + 1]);
      var rest := HeurChain(v, offset + 2 + a.avpLen);
      HeurChainLinked(v, offset + 2 + a.avpLen);
      var c := [a] + rest;
      assert HeurChain(v, offset) == c;
      assert forall i :: 1 <= i < |c| ==> c[i] == rest[i - 1];
    }
  }

  /** An integer AVP with a length other than four is rejected wherever it
      occurs in the chain. */
  lemma BadIntAvpRejects(v: View, i: nat)
    requires var chain := HeurChain(v, 0);
      i < |chain| && chain[i].avpType in IntTypes && chain[i].avpLen != 4
    ensures Heuristic(v, false) == Success(false)
    ensures Heuristic(v, true) == Success(false)
  {
  }

  /** A buffer that starts with End-Of-Header is rejected. */
  lemma LeadingEohRejects(v: View)
    requires |v.data| >= MinSize && v.data[0] == AvpEoh
    ensures Heuristic(v, false) == Success(false)
  {
    assert HeurChain(v, 0)[0] == Avp(0, v.data[0], v.data[1]);
  }
}

=== FILE: wrappers.dfy ===
/** Failure-compatible result types shared by every decoder of the project.
    A Wireshark dissector signals "not my packet" through its return value
    and signals a bounds violation by throwing; the model carries both as
    ordinary values so that no decoder ever aborts. */
module Wrappers {

  /** A value that may be absent, as a NULL handle or a failed table lookup. */
  datatype Option<+T> = None | Some(value: T)

  /** A value or an error; usable with `:-`. */
  datatype Result<+T, +E> = Success(value: T) | Failure(error: E) {

    predicate IsFailure() {
      Failure?
    }

    function PropagateFailure<U>(): Result<U, E>
      requires Failure?
    {
      Failure(error)
    }

    function Extract(): T
      requires Success?
    {
      value
    }
  }
}
